=== FILE: README.md ===
# Strava stat card, modelled in Dafny

strava-email-widget is a small Node.js server that answers `GET /` with a
640x480 PNG "stat card": the athlete's avatar and name in an orange header,
and up to four rounded rows for the latest activities. Each row has an icon
for the activity type, the name, the date, and a stats line
(`<miles> miles / <duration> / <elevation>m elevation`). The card is cached
on disk for ten minutes. Before each API request the server exchanges its
refresh token for a new access token, and it keeps API responses in memory
for an hour.

This project models the core of that program and proves properties about it.

- **Helpers** (`helpers.dfy`). `calculateRadius` is the corner-radius normaliser. `formatTime` is the duration formatter, with a reader `ParseTime` that serves as its inverse. The section on JavaScript's `~~` models the formatter exactly as written, 32-bit conversion included.
- **Canvas** (`canvas.dfy`). A 2D context is an append-only sequence of commands (`Cmd`). `roundRect`, `addText`, `loadIcon` and `createLayout` each append to it. A small interpreter, `Run`, replays the style assignments, so claims about colours, fonts and alignment are claims about the trace.
- **Strava** (`strava.dfy`). This is the API client as a state record: a URL-to-entry cache plus the token pair the process keeps in its environment. `reAuthorize`, `doFetch`, `getAthlete` and `getActivities` are pure functions. They take the replies of the token endpoint and the API as oracle inputs and return the calls they made, in order.
- **Card** (`card.dfy`). This is the request handler of `index.js`: the freshness test on the cached PNG, the two API requests, the header, the four-row cap, the row geometry and text, and the icon loads under `Promise.all`.
- **Config** (`config.dfy`) holds the constants of `lib/config.js`. **Text** (`text.dfy`) holds decimal printing and ASCII lower-casing. **Seqs** (`seqs.dfy`) holds slicing facts about concatenations.

`loadImage` is modelled as a set of loadable sources. A source outside the set is a rejected promise. Dates and the metres-to-miles conversion are given as functions (`Labels`). The clock is an integer parameter.

Behaviour of the code worth knowing:

- `formatTime` of 0 or of a value whose `typeof` is not `'number'` returns `'00:00:00'`, the `HH:MM:SS` form its doc comment names, not the `00h 00m 00s` form it prints for every other duration. See `FormatTimeZeroCases`.
- When the athlete request fails, `getAthlete` resolves to `false`. `loadImage(false.profile)` then rejects or never settles, inside a promise that nothing awaits, so the request is never answered: there is no header-only card for a failed athlete request. See `AthleteFailureLeavesRequestOpen`. A failed activities request, on the other hand, does give the header-only card (`EmptyListHeaderOnly`). A `null` activities body makes `arrActivities.length` throw, and a body with a non-zero `length` but no `map` (a non-empty string such as `"x"`) makes `arrActivities.map` throw; either way the request is never answered. `false`, `0`, `""` and values whose length is absent or 0 draw no rows.
- `roundRect`'s path is eleven commands: `beginPath`, `moveTo`, four line/curve pairs and `closePath`.
- When the token endpoint answers with a body lacking token fields, `reAuthorize` stores the string `"undefined"` in both tokens (`EnvString`).
- The freshness test's `fs.ensureDir(strPath)` returns a promise, which is always truthy. `Fresh` therefore checks only that the file exists and how old it is.

## Model

| member | source | states |
|---|---|---|
| Text.NatToStringRoundTrip | lib/helpers.js:49 | printing a whole number in decimal and reading the digits back gives the number |
| Text.IntToString | lib/helpers.js:49 | an integer prints as decimal digits that read back as the integer, with a leading `-` before the digits of its magnitude when it is negative |
| Text.NatToString | lib/helpers.js:49 | a whole number prints as a non-empty string of decimal digits, with no leading zero except for 0 itself |
| Text.ToLower | lib/canvas.js:111 | lower-casing keeps the length, maps every ASCII capital to its small letter, leaves every other character alone, and leaves no capital behind |
| Text.ToLowerIdempotent | lib/canvas.js:111 | lower-casing an already lower-cased type name changes nothing |
| Helpers.CornerOr0 | lib/helpers.js:19 | `radius[side] \|\| 0` keeps a truthy corner and turns an absent or zero corner into 0 |
| Helpers.CalculateRadius | lib/helpers.js:9-27 | a number gives that radius on all four corners; for an object, each truthy corner is kept and each missing or zero corner becomes 0; anything else gives four zero corners |
| Helpers.CalculateRadiusIdempotent | lib/helpers.js:9-27 | normalising the record calculateRadius returned gives the same record again |
| Helpers.CalculateRadiusKeepsRecords | lib/helpers.js:15-20 | every complete four-corner record is a fixed point of the object branch |
| Helpers.SquareCornerArguments | lib/helpers.js:11-23 | 0, an empty object and a non-radius all mean square corners; 10 gives 10 everywhere and `{tl: 5}` gives only a top-left radius |
| Helpers.Split | lib/helpers.js:44-46 | minutes and seconds are below 60 and hours, minutes and seconds add back up to the input |
| Helpers.Pad2 | lib/helpers.js:49 | a component prints as at least two digits, exactly two below 100, unpadded from 10 upwards, and its digits read back as the component |
| Helpers.GlueParts | lib/helpers.js:49 | in `<H>h <M>m <S>s` the hours, minutes and seconds sit at fixed offsets after the hours and are separated by the unit letters and spaces |
| Helpers.FormatTime | lib/helpers.js:35-52 | the literal `00:00:00` exactly for 0 and non-numbers; otherwise `<H>h <M>m <S>s`: the padded whole hours, the padded minutes within the hour and the padded seconds within the minute, each followed by its unit letter, with a single space after `h` and after `m` |
| Helpers.ParseGlue | lib/helpers.js:49 | three digit strings glued into `<H>h <M>m <S>s` read back as hours*3600 + minutes*60 + seconds |
| Helpers.FormatTimeRoundTrip | lib/helpers.js:35-52 | every number of seconds reads back from its formatted text, so the formatter loses nothing |
| Helpers.FormatTimeInjective | lib/helpers.js:35-52 | two durations that print alike are equal |
| Helpers.FormatTimeAlphabet | lib/helpers.js:49 | a formatted duration contains only digits, `h`, `m`, `s`, spaces and colons |
| Helpers.FormatTimeZeroCases | lib/helpers.js:38-41 | a non-number and 0 both print `00:00:00`, and no positive duration prints like them |
| Helpers.FormatTimeExample3661 | lib/helpers.js:49 | 3661 seconds prints `01h 01m 01s` |
| Helpers.FormatTimeExample3600 | lib/helpers.js:49 | one hour prints `01h 00m 00s` |
| Helpers.FormatTimeExample360000 | lib/helpers.js:49 | 100 hours keeps all three hour digits: `100h 00m 00s` |
| Helpers.ToInt32 | lib/helpers.js:44-46 | `~~` yields a signed 32-bit value congruent to its argument modulo 2^32, and is the identity inside the 32-bit range |
| Helpers.JsRem | lib/helpers.js:46 | JavaScript's `%` agrees with the mathematical remainder on non-negative dividends and takes the dividend's sign on negative ones |
| Helpers.JsPad2OfNat | lib/helpers.js:49 | the template's padding agrees with Pad2 on every non-negative component |
| Helpers.JsFormatTime | lib/helpers.js:35-52 | the formatter as written, with `~~` and `%` in JavaScript's 32-bit and sign-of-dividend semantics: `00:00:00` exactly for 0 and non-numbers, and for every positive duration a text ending in the seconds unit `s` |
| Helpers.JsFormatTimeAgreesBelow2To31 | lib/helpers.js:44-49 | below 2^31 seconds the formatter as written prints exactly what the corrected one prints |
| Helpers.JsFormatTimeWrapsAt2To31 | lib/helpers.js:44-49 | at 2^31 seconds the formatter as written differs from the corrected one, and its text no longer reads back as a duration |
| Canvas.Outline | lib/canvas.js:61-71 | the path is beginPath, moveTo, four lineTo/quadraticCurveTo pairs and closePath, starts at (x + tl, y) and ends where it started |
| Canvas.OutlineShape | lib/canvas.js:64-70 | whatever the radii, every curve's control point is a corner of the box, and the path itself neither fills nor strokes |
| Canvas.SquareOutlineVisitsCorners | lib/canvas.js:59-70 | with zero radii every point the path visits is a corner of the box |
| Canvas.OutlineWithinBox | lib/canvas.js:61-71 | with non-negative radii that fit the sides, every point and control point of the path lies inside the box |
| Canvas.RoundRect | lib/canvas.js:57-80 | roundRect appends the normalised outline, then a fill only if asked, then a stroke only if asked, and nothing else |
| Canvas.RoundRectFlags | lib/canvas.js:73-79 | a fill appears in what roundRect draws exactly when `fill` is set, and a stroke exactly when `stroke` is set |
| Canvas.RoundRectDefaults | lib/canvas.js:57 | omitted arguments mean square corners, no fill and no stroke: the bare outline |
| Canvas.Run | lib/canvas.js:94-96 | the style in force after a trace: the initial style with each style assignment applied in order, the last assignment to a field winning |
| Canvas.RunAppend | lib/canvas.js:94-96 | replaying a trace in two pieces, the second from where the first ended, gives the style of the whole trace |
| Canvas.AddText | lib/canvas.js:93-98 | the text is drawn last at the given position, after which the font, fill colour and alignment are the requested ones, and every other style is as before |
| Canvas.IconAsset | lib/canvas.js:111 | the icon file sits in `assets/icons/`, ends in `.svg`, and between them holds the activity type letter for letter, lower-cased |
| Canvas.IconAssetInjective | lib/canvas.js:111 | two activity types load the same icon file exactly when they agree up to case |
| Canvas.AddTextStyle | lib/canvas.js:93-98 | after the whole addText call the requested font, fill colour and alignment are in force: drawing the text itself changes no style |
| Canvas.IconImage | lib/canvas.js:117 | the icon image lies inside the 60x60 icon box, inset by 5 pixels on every side |
| Canvas.LoadIcon | lib/canvas.js:109-121 | the icon draws exactly when its file loads, and a failed load rejects with that file; a drawn icon is the radius-8 outline of box (30, 110 + 94i), filled, stroked, then the image |
| Canvas.LoadIconStyle | lib/canvas.js:114-116 | whatever styles were set before, the icon box is filled white and stroked black |
| Canvas.StyleUnchangedByPath | lib/canvas.js:61-79 | path, fill, stroke and image commands leave the context's style as it was |
| Canvas.Panel | lib/canvas.js:24-28 | a panel sets its fill colour, then draws the normalised outline of its box and fills it |
| Canvas.PanelNotStroked | lib/canvas.js:25-28 | a panel never strokes |
| Canvas.Layout | lib/canvas.js:24-31 | the layout is the white body panel, then the accent header panel, then the logo |
| Canvas.CreateLayout | lib/canvas.js:15-36 | createLayout produces the layout exactly when the logo loads, and otherwise rejects with the logo's path |
| Canvas.LayoutGeometry | lib/canvas.js:24-28 | both panels lie on the 640x480 canvas; they span it from top to bottom, rounded at the bottom and at the top respectively, and overlap by 10 pixels; the logo sits inside the header |
| Strava.EnvString | lib/strava.js:105-106 | assigning to process.env stores the token, or the string "undefined" for a missing one |
| Strava.Lookup | lib/strava.js:22 | a cached value is found exactly when its URL is stored and its expiry time has not passed, and it is the stored payload |
| Strava.ReAuthorize | lib/strava.js:88-109 | one refresh-token POST with the stored credentials; a parsed body overwrites both tokens and keeps the client id and secret; a failure changes nothing; the cache is never touched |
| Strava.RefreshTokenRotates | lib/strava.js:98-106 | the next refresh presents the refresh token the previous reply carried |
| Strava.DoFetch | lib/strava.js:19-58 | a hit answers from the cache with no calls; a miss refreshes first and sends the GET only after a granted refresh, bearing the new access token; only an ok, parsed response succeeds, and only then is the cache written, under exactly that URL; after a miss the stored tokens are the ones the refresh left, so a granted refresh keeps its new refresh token and the unchanged client id and secret, even when the GET fails |
| Strava.FetchThenHit | lib/strava.js:22-26 | after a successful fetch of a truthy body, fetching the same URL within the hour makes no calls and returns the same payload |
| Strava.EntryExpires | lib/strava.js:5 | more than an hour after a fetch, the next fetch of that URL starts with a token refresh |
| Strava.FetchKeepsOtherEntries | lib/strava.js:50 | a fetch never changes what the cache answers for any other URL |
| Strava.Downgrade | lib/strava.js:63-71 | the public result always resolves: `false` exactly when doFetch failed, the payload otherwise, with the same calls and state |
| Strava.GetAthlete | lib/strava.js:60-72 | getAthlete always resolves, only ever GETs the athlete URL, makes exactly doFetch's calls and leaves its client state, and yields `false` exactly when the fetch failed and doFetch's payload otherwise |
| Strava.GetActivities | lib/strava.js:74-86 | getActivities always resolves, only ever GETs `athlete/activities?per_page=4`, makes exactly doFetch's calls and leaves its client state, and yields `false` exactly when the fetch failed and doFetch's payload otherwise |
| Card.Fresh | index.js:56 | a cached card is served only when the file exists and is younger than ten minutes; the existence test itself is always truthy |
| Card.StaleStaysStale | index.js:56 | a stale or missing cached card stays stale as the clock moves on, until it is rewritten |
| Card.FreshExamples | index.js:56 | a card 5 minutes old is served, and one 10 or 15 minutes old or missing is redrawn |
| Card.Shown | index.js:94 | the number of drawn rows is the list length, capped at four |
| Card.RowsInOrderAndDisjoint | index.js:101-106 | a later row starts at least 14 pixels below an earlier one ends, so no two rows overlap |
| Card.RowsFitCanvas | index.js:97-106 | each of the four rows lies on the body panel inside the canvas, and the last ends at y = 462 |
| Card.FifthRowWouldOverflow | index.js:94-101 | a fifth row would end below the canvas |
| Card.RowContentsInsideRow | index.js:97-110 | the icon box and image lie inside the row, the text starts right of the icon, and the three baselines fall inside the row, top to bottom |
| Card.StatsLine | index.js:110 | the stats line of a row: distance label, moving time and elevation gain, separated by ` / ` and labelled in miles and metres (its properties are stated by StatsLineShape and StatsLineCarriesMovingTime) |
| Card.StatsLineShape | index.js:110 | the stats line starts with the miles label and ` miles / `, then the formatted moving time, and ends with ` / `, the elevation gain in decimal and `m elevation` |
| Card.StatsLineCarriesMovingTime | index.js:110 | the duration inside the stats line reads back as the activity's moving time |
| Card.HeaderText | index.js:87 | the header is the first name, a space, the last name, and the username in parentheses, each at its own fixed offset |
| Card.RowCmds | index.js:104-110 | every row adds 27 commands |
| Card.RowBoxDrawn | index.js:104-106 | the row box is the radius-10 outline of (20, 100 + 94i, 400, 80), filled white and then stroked in the accent colour, whatever style the context had before |
| Card.RowCmdsContents | index.js:104-110 | a row is its box, then name, date and stats line at x = 100 on baselines 25, 45 and 65 below the row top, the name left-aligned in black whatever style the context had before |
| Card.RowTextStyles | index.js:108-110 | the name is drawn in 16px Montserrat, the date in 16px Montserrat Bold and the stats line in 14px Montserrat, each left-aligned in black, from any style the context had before the row |
| Card.RowStylesAfter | index.js:104-108 | drawn after any earlier commands, the header's right alignment and white text included, a row's box is filled white and stroked in the accent colour, and its name is left-aligned in black |
| Card.MapRowsLength | index.js:92-114 | if each row draws n commands, the walk draws n per shown row |
| Card.MapRowsInOrder | index.js:92-114 | block j of the walk is exactly what the callback drew for activity j |
| Card.MapRowsPastCap | index.js:94 | from the fifth activity on, the walk draws nothing |
| Card.MapRowsIgnoresTail | index.js:92-114 | the walk over a list draws the same as the walk over its first four activities |
| Card.MapIconsSettles | index.js:116-124 | all the icon loads settle exactly when every load of a shown row resolves |
| Card.MapIconsInOrder | index.js:117-124 | once all loads settle, block j is exactly what the load for activity j drew |
| Card.MapIconsLength | index.js:117-124 | if each load draws n commands, the settled result has n per shown row |
| Card.MapIconsPastCap | index.js:118 | from the fifth activity on, no icon is loaded |
| Card.MapIconsIgnoresTail | index.js:117-122 | the loads over a list are the loads over its first four activities |
| Card.DrawRows | index.js:92-114 | the rows add 27 commands per shown activity |
| Card.DrawRowsInOrder | index.js:92-114 | the j-th block of 27 row commands is the row for activity j |
| Card.DrawRowsIgnoresTail | index.js:92-114 | activities past the fourth never reach the rows |
| Card.DrawIcons | index.js:116-124 | the icons settle exactly when every shown activity's icon file loads, and add 16 commands per shown row |
| Card.DrawIconsInOrder | index.js:117-124 | the j-th icon block is loadIcon for row j, ending with the type's image drawn in row j's icon box |
| Card.DrawIconsIgnoresTail | index.js:117-122 | activities past the fourth never load an icon |
| Card.ProfileSource | index.js:82 | an avatar source exists exactly when the athlete request returned an athlete, and it is that athlete's `profile`; `false`, `null` and every other body give none |
| Card.ActivityList | index.js:89-92 | the list step fails exactly on a `null` body (reading `.length`) and on a truthy body with a non-zero length but no `map`, such as a non-empty string; a list keeps its activities; `false` from a failed request, the other falsy values `0` and `""`, and values with no length draw no rows |
| Card.AthleteHeader | index.js:84-87 | the header adds 18 commands and keeps everything drawn before it intact |
| Card.AvatarDrawn | index.js:84-86 | the avatar is a black, stroked, square 40x40 outline at (580, 20), then the profile picture in the same box |
| Card.AthleteHeaderContents | index.js:87 | after the avatar, the name is drawn at (565, 45), right-aligned and in white |
| Card.DrawActivities | index.js:89-150 | the activities settle exactly when all shown icons load, and add the rows and then the icons after the header |
| Card.DrawActivitiesIgnoresTail | index.js:89-124 | only the first four activities affect the card |
| Card.Render | index.js:78-151 | a card is produced exactly when the logo, the avatar and every shown icon load and the activities body is neither `null` nor a non-list with a non-zero length, so such a body never yields a card; the layout and then the header are a prefix of it |
| Card.RenderDraws | index.js:78-89 | once the layout, the avatar and the list are in, the card is the header followed by what the list draws |
| Card.RenderStartsWithLayout | index.js:78-80 | every finished card starts with the panels and the logo |
| Card.EmptyListHeaderOnly | index.js:138-149 | with an empty list, a failed activities request, a falsy body other than `null` or a truthy value with no length, the card is the layout and the header alone |
| Card.RenderIgnoresExtraActivities | index.js:92-122 | a list with more than four activities renders the same card as its first four |
| Card.FetchShape | lib/strava.js:32-40 | a fetch makes at most one GET, second, right after its token refresh, to the requested URL |
| Card.ConcatKeepsOrder | index.js:72-75 | chaining the athlete fetch before the activities fetch keeps every GET right after a refresh and never GETs the athlete after the activities |
| Card.HandleRequest | index.js:49-157 | a fresh cached card is served with no API calls; on a miss the calls are the athlete request's followed by the activities request's, the client state is the one the second leaves, and the answer is the card drawn from the two results, or none when drawing fails; each GET follows a refresh, and a new card begins with the layout |
| Card.MissWithEmptyListAnswersHeader | index.js:72-149 | on a miss whose activities request fails or finds no rows, with the logo and the avatar loadable, the request is answered with the layout and the athlete header alone |
| Card.AthleteFailureLeavesRequestOpen | index.js:72-82 | when the athlete request fails, the handler never answers |
| Card.ActivitiesRefreshUsesNewToken | lib/strava.js:88-109 | when the athlete request's refresh is granted and the activities response is not cached, the activities request's refresh presents the refresh token the first refresh received, with the same client id and secret |
| Card.MissRefreshesFirst | index.js:72-74 | on a missing or stale card with no cached athlete, the first call is a token refresh |

## Left out

- The Express server, routing, the favicon handler and response writing (`res.end`) are HTTP plumbing. The model returns an `Outcome` instead.
- Filesystem access is left out: `ensureDir`, `statSync`, `readFile`, the write stream and PNG encoding. The age test takes the file's modification time and the clock as integers.
- `loadImage`, SVG decoding, font registration and rasterisation are foreign library calls. Image loading is a set of loadable sources, and drawing is a command trace with no pixels.
- The metres-to-miles conversion is floating point, and the date line depends on `Date`, the locale and the time zone. Both are opaque functions in `Labels`; the conversion receives the distance as the real number of metres Strava sends.
- The network and JSON parsing are oracle inputs (`TokenReply`, `GetReply`). The request and response headers other than the bearer token are not modelled.
- `process.env` is modelled as the `Tokens` record. The client id and secret are never changed by the code.
- Concurrency is left out. Two requests in flight share one cache and one token pair, and that interleaving is not modelled; each request runs to completion in the model. The icon loads of `Promise.all` are drawn in list order. In JavaScript they draw in the order the images finish loading, and a rejection is the first one to happen in time, not the first in the list.
- The clock is read once per HTTP request: the freshness test and both API requests see the same time. Time passing during the awaits is not modelled.
- node-cache's expiry rule is assumed, since node-cache is not part of this model: an entry lives up to and including its expiry time, 3600 s after it was stored.
- The unused configuration is left out: `objPositions`, `arrDays` and `arrMonths` (the months feed only the date line, which is opaque).
- Helpers.CalculateRadius: the JavaScript mutates the caller's object in place. The model returns a new record, and no caller in the core reads the object again. Corners are integers, so NaN and non-numeric corner values are not modelled.
- Helpers.FormatTime: durations are whole, non-negative numbers. Fractional and negative inputs, which reach `~~` and `%` with other results, are not modelled; neither are `NaN` and `Infinity`, which are numbers to `typeof` and not 0, so `~~` turns them into 0 and the program prints `00h 00m 00s` for them, not the `00:00:00` of `NonNumber`.
- Text.ToLower: only the ASCII letters are lower-cased. Non-ASCII activity types would need Unicode case mapping.
- Canvas.AddText and Canvas.Run: only the four style fields the card sets are tracked (fill, stroke, font, alignment). Line width and transforms are never changed by the code.
- Card.StatsLine: the duration is printed with the corrected `FormatTime`, not with `JsFormatTime`, the formatter as written. The two agree below 2^31 seconds (`JsFormatTimeAgreesBelow2To31`); from 2^31 seconds on the program prints a wrapped seconds field such as `0-8s` (see Findings). The elevation gain is a whole number of metres printed in decimal; Strava sends it as a JSON number that is usually fractional (`12.5`), and JavaScript's number-to-string printing of fractions is not modelled.
- Card.StatsLineCarriesMovingTime: holds of the program as written only below 2^31 seconds of moving time, for the reason given under Card.StatsLine.
- Canvas.IconAsset and Canvas.IconAssetInjective: `path.join` normalises `.` and `..` segments and repeated slashes; the model concatenates. Activity types are taken as single path segments with no `/`, `.` or `..`, as Strava's type names (`Run`, `Ride`, `Swim`, ...) are; for such names the two agree.
- Card.HandleRequest: the console logging and the catch-all `.catch` that only logs are not modelled. A rejection anywhere in the chain ends as `NoResponse`.

## Findings

| source | as written | input that shows it | evidently intended | confidence | as-written member | corrected member |
|---|---|---|---|---|---|---|
| lib/helpers.js:44-49 | `~~time % 60` and `~~(time / 3600)` convert to a signed 32-bit integer first, so at 2^31 seconds and beyond the seconds field comes from a wrapped negative number | 2147483648 prints `596523h 14m 0-8s` | `596523h 14m 08s`: seconds = time mod 60, for every duration | low: 2^31 seconds is about 68 years of moving time; not executed | Helpers.JsFormatTimeWrapsAt2To31 | Helpers.FormatTimeRoundTrip |

=== FILE: canvas.dfy ===
/** lib/canvas.js: drawing as an append-only trace of 2D-context commands. */
module Canvas {
  import opened Wrappers
  import opened Text
  import opened Helpers
  import opened Config

  /** One call on a CanvasRenderingContext2D, or one assignment to its style state. */
  datatype Cmd =
    | BeginPath
    | MoveTo(x: int, y: int)
    | LineTo(x: int, y: int)
    | QuadTo(cpx: int, cpy: int, x: int, y: int)
    | ClosePath
    | Fill
    | Stroke
    | SetFillStyle(colour: string)
    | SetStrokeStyle(colour: string)
    | SetFont(font: string)
    | SetTextAlign(align: string)
    | FillText(text: string, x: int, y: int)
    | DrawImage(src: string, x: int, y: int, w: int, h: int)

  /** An axis-aligned box given by its top-left corner, width and height. */
  datatype Rect = Rect(x: int, y: int, w: int, h: int) {
    predicate Contains(px: int, py: int) {
      x <= px <= x + w && y <= py <= y + h
    }

    predicate IsCorner(px: int, py: int) {
      (px == x || px == x + w) && (py == y || py == y + h)
    }

    predicate Within(outer: Rect) {
      outer.x <= x && x + w <= outer.x + outer.w && outer.y <= y && y + h <= outer.y + outer.h
    }

    function Bottom(): int {
      y + h
    }
  }

  /** Two boxes that share no pixel row or share no pixel column. */
  predicate Disjoint(a: Rect, b: Rect) {
    a.Bottom() < b.y || b.Bottom() < a.y || a.x + a.w < b.x || b.x + b.w < a.x
  }

  const Surface: Rect := Rect(0, 0, Width, Height)

  // ---------------------------------------------------------------------
  // roundRect

  /** Commands that carry an end point. */
  predicate HasPoint(c: Cmd) {
    c.MoveTo? || c.LineTo? || c.QuadTo?
  }

  /** beginPath, moveTo, four (lineTo, quadraticCurveTo) pairs, closePath. */
  predicate IsOutline(p: seq<Cmd>) {
    && |p| == 11
    && p[0] == BeginPath
    && p[1].MoveTo?
    && p[2].LineTo? && p[3].QuadTo?
    && p[4].LineTo? && p[5].QuadTo?
    && p[6].LineTo? && p[7].QuadTo?
    && p[8].LineTo? && p[9].QuadTo?
    && p[10] == ClosePath
  }

  /** The last curve ends where the path started. */
  predicate Closed(p: seq<Cmd>)
    requires IsOutline(p)
  {
    p[9].x == p[1].x && p[9].y == p[1].y
  }

  predicate ControlPointsAtCorners(p: seq<Cmd>, box: Rect) {
    forall k :: 0 <= k < |p| && p[k].QuadTo? ==> box.IsCorner(p[k].cpx, p[k].cpy)
  }

  predicate PointsAtCorners(p: seq<Cmd>, box: Rect) {
    forall k :: 0 <= k < |p| && HasPoint(p[k]) ==> box.IsCorner(p[k].x, p[k].y)
  }

  predicate PointsWithin(p: seq<Cmd>, box: Rect) {
    forall k :: 0 <= k < |p| && HasPoint(p[k]) ==>
      box.Contains(p[k].x, p[k].y) && (p[k].QuadTo? ==> box.Contains(p[k].cpx, p[k].cpy))
  }

  /** The rounded-rectangle path of lib/canvas.js for a box and normalised radii. */
  function Outline(box: Rect, rad: Radius): (p: seq<Cmd>)
    ensures IsOutline(p) && Closed(p)
    ensures p[1] == MoveTo(box.x + rad.tl, box.y)
  {
    var x, y, w, h := box.x, box.y, box.w, box.h;
    [ BeginPath,
      MoveTo(x + rad.tl, y),
      LineTo(x + w - rad.tr, y),
      QuadTo(x + w, y, x + w, y + rad.tr),
      LineTo(x + w, y + h - rad.br),
      QuadTo(x + w, y + h, x + w - rad.br, y + h),
      LineTo(x + rad.bl, y + h),
      QuadTo(x, y + h, x, y + h - rad.bl),
      LineTo(x, y + rad.tl),
      QuadTo(x, y, x + rad.tl, y),
      ClosePath ]
  }

  /** Whatever the radii, the curves bend towards the box's corners, and the path
      neither fills nor strokes. */
  lemma OutlineShape(box: Rect, rad: Radius)
    ensures ControlPointsAtCorners(Outline(box, rad), box)
    ensures forall k :: 0 <= k < 11 ==> Outline(box, rad)[k] != Fill && Outline(box, rad)[k] != Stroke
  {
  }

  /** Radii that fit the box: no two corners on one side overlap. */
  predicate RadiiFit(box: Rect, rad: Radius) {
    && 0 <= rad.tl && 0 <= rad.tr && 0 <= rad.br && 0 <= rad.bl
    && rad.tl + rad.tr <= box.w && rad.bl + rad.br <= box.w
    && rad.tl + rad.bl <= box.h && rad.tr + rad.br <= box.h
  }

  /** With square corners the outline is exactly the box: every point it visits is a corner. */
  lemma SquareOutlineVisitsCorners(box: Rect)
    ensures PointsAtCorners(Outline(box, NoRadius), box)
  {
  }

  /** With radii that fit, the whole outline stays inside its bounding box. */
  lemma OutlineWithinBox(box: Rect, rad: Radius)
    requires RadiiFit(box, rad)
    ensures PointsWithin(Outline(box, rad), box)
  {
  }

  /** roundRect: the normalised path, then fill() and stroke() only when asked. */
  function RoundRect(ctx: seq<Cmd>, x: int, y: int, width: int, height: int,
                     radius: RadiusArg := Uniform(0), fill: bool := false, stroke: bool := false): (r: seq<Cmd>)
    ensures |r| == |ctx| + 11 + (if fill then 1 else 0) + (if stroke then 1 else 0)
    ensures r[..|ctx|] == ctx
    ensures r[|ctx|..|ctx| + 11] == Outline(Rect(x, y, width, height), CalculateRadius(radius))
    ensures r[|ctx| + 11..] == (if fill then [Fill] else []) + (if stroke then [Stroke] else [])
  {
    var path := Outline(Rect(x, y, width, height), CalculateRadius(radius));
    var tail := (if fill then [Fill] else []) + (if stroke then [Stroke] else []);
    assert (ctx + path + tail)[|ctx|..|ctx| + 11] == path;
    ctx + path + tail
  }

  /** fill() and stroke() appear in what roundRect draws exactly when asked for. */
  lemma RoundRectFlags(ctx: seq<Cmd>, x: int, y: int, w: int, h: int, radius: RadiusArg, fill: bool, stroke: bool)
    ensures var r := RoundRect(ctx, x, y, w, h, radius, fill, stroke);
      && (Fill in r[|ctx|..] <==> fill)
      && (Stroke in r[|ctx|..] <==> stroke)
  {
    var r := RoundRect(ctx, x, y, w, h, radius, fill, stroke);
    OutlineShape(Rect(x, y, w, h), CalculateRadius(radius));
    assert r[|ctx|..] == r[|ctx|..|ctx| + 11] + r[|ctx| + 11..];
  }

  /** Omitted arguments: square corners, neither filled nor stroked. */
  lemma RoundRectDefaults(ctx: seq<Cmd>, x: int, y: int, w: int, h: int)
    ensures RoundRect(ctx, x, y, w, h) == RoundRect(ctx, x, y, w, h, NotARadius, false, false)
    ensures RoundRect(ctx, x, y, w, h) == ctx + Outline(Rect(x, y, w, h), NoRadius)
  {
  }

  // ---------------------------------------------------------------------
  // Context state and addText

  /** The part of the context state the card sets. */
  datatype Style = Style(fillStyle: string, strokeStyle: string, font: string, align: string)

  /** The state of a fresh 2D context. */
  const InitialStyle: Style := Style("#000", "#000", "10px sans-serif", "start")

  function Apply(st: Style, c: Cmd): Style {
    match c
    case SetFillStyle(colour) => st.(fillStyle := colour)
    case SetStrokeStyle(colour) => st.(strokeStyle := colour)
    case SetFont(font) => st.(font := font)
    case SetTextAlign(align) => st.(align := align)
    case _ => st
  }

  /** The style in force after replaying a trace. */
  function Run(st: Style, cmds: seq<Cmd>): Style {
    if |cmds| == 0 then st else Apply(Run(st, cmds[..|cmds| - 1]), cmds[|cmds| - 1])
  }

  lemma RunSnoc(st: Style, cmds: seq<Cmd>, c: Cmd)
    ensures Run(st, cmds + [c]) == Apply(Run(st, cmds), c)
  {
    assert (cmds + [c])[..|cmds|] == cmds;
  }

  /** Replaying a trace in two pieces ends in the same style as replaying it whole. */
  lemma {:induction false} RunAppend(st: Style, a: seq<Cmd>, b: seq<Cmd>)
    ensures Run(st, a + b) == Run(Run(st, a), b)
    decreases |b|
  {
    if |b| == 0 {
      assert a + b == a;
    } else {
      var c := b[|b| - 1];
      assert a + b == (a + b[..|b| - 1]) + [c];
      RunSnoc(st, a + b[..|b| - 1], c);
      RunAppend(st, a, b[..|b| - 1]);
    }
  }

  /** The style part-way through a trace drawn after ctx is that part replayed
      from the style ctx leaves. */
  lemma RunAfter(st: Style, ctx: seq<Cmd>, b: seq<Cmd>, k: nat)
    requires k <= |b|
    ensures Run(st, (ctx + b)[..|ctx| + k]) == Run(Run(st, ctx), b[..k])
  {
    assert (ctx + b)[..|ctx| + k] == ctx + b[..k];
    RunAppend(st, ctx, b[..k]);
  }

  /** Commands that do not touch the style state. */
  predicate StyleFree(c: Cmd) {
    !c.SetFillStyle? && !c.SetStrokeStyle? && !c.SetFont? && !c.SetTextAlign?
  }

  /** The four commands of one addText call. */
  function TextCmds(text: string, left: int, top: int, font: string, align: string, fill: string): (r: seq<Cmd>)
    ensures |r| == 4 && r[3] == FillText(text, left, top)
  {
    [SetFont(font), SetFillStyle(fill), SetTextAlign(align), FillText(text, left, top)]
  }

  /** addText: the text is drawn at the given position with the requested font,
      colour and alignment; the stroke style is left as it was. */
  function AddText(ctx: seq<Cmd>, text: string, left: int, top: int,
                   font: string := "16px Montserrat", align: string := "left", fill: string := "#000"): (r: seq<Cmd>)
    ensures |r| == |ctx| + 4 && r[..|ctx|] == ctx
    ensures r[|r| - 1] == FillText(text, left, top)
    ensures forall st :: Run(st, r[..|r| - 1]) == Run(st, ctx).(fillStyle := fill, font := font, align := align)
  {
    var r := ctx + TextCmds(text, left, top, font, align, fill);
    assert r[..|r| - 1] == ctx + [SetFont(font)] + [SetFillStyle(fill)] + [SetTextAlign(align)];
    forall st
      ensures Run(st, r[..|r| - 1]) == Run(st, ctx).(fillStyle := fill, font := font, align := align)
    {
      RunSnoc(st, ctx, SetFont(font));
      RunSnoc(st, ctx + [SetFont(font)], SetFillStyle(fill));
      RunSnoc(st, ctx + [SetFont(font)] + [SetFillStyle(fill)], SetTextAlign(align));
    }
    r
  }

  /** After the whole addText call, text included, the requested font, colour and
      alignment are in force: drawing the text changes no style. */
  lemma AddTextStyle(st: Style, ctx: seq<Cmd>, text: string, left: int, top: int, font: string, align: string, fill: string)
    ensures Run(st, AddText(ctx, text, left, top, font, align, fill)) == Run(st, ctx).(fillStyle := fill, font := font, align := align)
  {
    var r := AddText(ctx, text, left, top, font, align, fill);
    assert Run(st, r) == Apply(Run(st, r[..|r| - 1]), r[|r| - 1]);
  }

  // ---------------------------------------------------------------------
  // loadIcon

  /** The icon file for an activity type: its lower-cased name with `.svg`, in
      the icons folder. The path holds no capital letter of the type's name. */
  function IconAsset(kind: string): (r: string)
    ensures |r| == |kind| + 17
    ensures r[..13] == "assets/icons/" && r[|r| - 4..] == ".svg"
    ensures forall i :: 0 <= i < |kind| ==> r[13 + i] == LowerChar(kind[i])
  {
    "assets/icons/" + ToLower(kind) + ".svg"
  }

  /** Two activity types share an icon exactly when they agree up to case. */
  lemma IconAssetInjective(a: string, b: string)
    ensures IconAsset(a) == IconAsset(b) <==> ToLower(a) == ToLower(b)
  {
    var pre := "assets/icons/";
    if IconAsset(a) == IconAsset(b) {
      var s := IconAsset(a);
      assert |ToLower(a)| == |ToLower(b)|;
      assert ToLower(a) == s[|pre|..|s| - 4] == IconAsset(b)[|pre|..|s| - 4] == ToLower(b);
    }
  }

  /** The 60x60 box for row i. */
  function IconBox(i: nat): Rect {
    Rect(30, 100 + i * 94 + 10, 60, 60)
  }

  /** The image drawn inside the icon box, inset by 5 pixels. */
  function IconImage(i: nat): (r: Rect)
    ensures r.Within(IconBox(i))
    ensures r.x == IconBox(i).x + 5 && r.y == IconBox(i).y + 5
    ensures r.x + r.w == IconBox(i).x + IconBox(i).w - 5 && r.Bottom() == IconBox(i).Bottom() - 5
  {
    Rect(35, 100 + i * 94 + 15, 50, 50)
  }

  const IconRadius: Radius := Radius(8, 8, 8, 8)

  /** loadIcon: when the icon file loads, a white, black-edged rounded box with
      the image inside it; when it does not, the promise rejects and nothing is drawn. */
  function LoadIcon(ctx: seq<Cmd>, i: nat, kind: string, loadable: set<string>): (r: Result<seq<Cmd>, string>)
    ensures r.Success? <==> IconAsset(kind) in loadable
    ensures r.Failure? ==> r.error == IconAsset(kind)
    ensures r.Success? ==>
      && |r.value| == |ctx| + 16 && r.value[..|ctx|] == ctx
      && r.value[|ctx| + 2..|ctx| + 13] == Outline(IconBox(i), IconRadius)
      && r.value[|ctx| + 13] == Fill && r.value[|ctx| + 14] == Stroke
      && var img := IconImage(i); r.value[|ctx| + 15] == DrawImage(IconAsset(kind), img.x, img.y, img.w, img.h)
  {
    var asset := IconAsset(kind);
    if asset !in loadable then Failure(asset)
    else
      var top := 100 + i * 94 + 10;
      var styled := ctx + [SetFillStyle(White), SetStrokeStyle(Black)];
      var boxed := RoundRect(styled, 30, top, 60, 60, Uniform(8), true, true);
      var r := boxed + [DrawImage(asset, 30 + 5, top + 5, 50, 50)];
      assert boxed[..|styled|] == styled;
      assert r[..|ctx|] == boxed[..|styled|][..|ctx|];
      assert r[|ctx| + 2..|ctx| + 13] == boxed[|styled|..|styled| + 11];
      Success(r)
  }

  /** The icon box is filled white and stroked black, whatever styles were set before. */
  lemma LoadIconStyle(st: Style, ctx: seq<Cmd>, i: nat, kind: string, loadable: set<string>)
    requires IconAsset(kind) in loadable
    ensures var r := LoadIcon(ctx, i, kind, loadable).value;
      Run(st, r[..|ctx| + 13]).fillStyle == White && Run(st, r[..|ctx| + 14]).strokeStyle == Black
  {
    var r := LoadIcon(ctx, i, kind, loadable).value;
    var styled := ctx + [SetFillStyle(White), SetStrokeStyle(Black)];
    assert r[..|ctx| + 2] == styled;
    RunSnoc(st, ctx, SetFillStyle(White));
    RunSnoc(st, ctx + [SetFillStyle(White)], SetStrokeStyle(Black));
    assert styled == ctx + [SetFillStyle(White)] + [SetStrokeStyle(Black)];
    StyleUnchangedByPath(st, styled, r[..|ctx| + 13]);
    StyleUnchangedByPath(st, styled, r[..|ctx| + 14]);
  }

  /** Path, fill and stroke commands leave the style as it was. */
  lemma {:induction false} StyleUnchangedByPath(st: Style, pre: seq<Cmd>, cmds: seq<Cmd>)
    requires |pre| <= |cmds| && cmds[..|pre|] == pre
    requires forall k :: |pre| <= k < |cmds| ==> StyleFree(cmds[k])
    ensures Run(st, cmds) == Run(st, pre)
  {
    if |cmds| > |pre| {
      var init := cmds[..|cmds| - 1];
      assert init[..|pre|] == pre;
      StyleUnchangedByPath(st, pre, init);
    } else {
      assert cmds == pre;
    }
  }

  // ---------------------------------------------------------------------
  // createLayout

  /** The white body panel, rounded at the bottom. */
  const BodyPanel: Rect := Rect(0, 70, Width, Height - 70)
  const BodyRadius: RadiusArg := PerCorner(None, None, Some(10), Some(10))

  /** The accent header panel, rounded at the top. */
  const HeaderPanel: Rect := Rect(0, 0, Width, 80)
  const HeaderRadius: RadiusArg := PerCorner(Some(10), Some(10), None, None)

  const LogoAsset: string := "assets/logo-full.svg"
  const LogoBox: Rect := Rect(20, 20, 196, 40)

  /** A filled panel: set the fill colour, then a filled, unstroked rounded rectangle. */
  function Panel(ctx: seq<Cmd>, colour: string, box: Rect, radius: RadiusArg): (r: seq<Cmd>)
    ensures |r| == |ctx| + 13 && r[..|ctx|] == ctx
    ensures r[|ctx|] == SetFillStyle(colour)
    ensures r[|ctx| + 1..|ctx| + 12] == Outline(box, CalculateRadius(radius)) && r[|ctx| + 12] == Fill
  {
    var styled := ctx + [SetFillStyle(colour)];
    var r := RoundRect(styled, box.x, box.y, box.w, box.h, radius, true);
    assert r[..|styled|] == styled;
    assert r[..|ctx|] == styled[..|ctx|];
    assert r[|ctx| + 1..|ctx| + 12] == r[|styled|..|styled| + 11];
    r
  }

  /** A panel is filled, never stroked. */
  lemma PanelNotStroked(ctx: seq<Cmd>, colour: string, box: Rect, radius: RadiusArg)
    ensures var r := Panel(ctx, colour, box, radius);
      forall k :: |ctx| <= k < |r| ==> r[k] != Stroke
  {
    var r := Panel(ctx, colour, box, radius);
    OutlineShape(box, CalculateRadius(radius));
    forall k | |ctx| <= k < |r|
      ensures r[k] != Stroke
    {
      if |ctx| < k < |ctx| + 12 {
        assert r[k] == r[|ctx| + 1..|ctx| + 12][k - |ctx| - 1];
      }
    }
  }

  /** The panels and logo of createLayout, for any boxes: the body panel filled in
      white, the header panel over it filled in the accent colour, then the logo. */
  function Layout(body: Rect, header: Rect, logo: Rect): (r: seq<Cmd>)
    ensures r == [SetFillStyle(White)] + Outline(body, CalculateRadius(BodyRadius)) + [Fill]
               + [SetFillStyle(Primary)] + Outline(header, CalculateRadius(HeaderRadius)) + [Fill]
               + [DrawImage(LogoAsset, logo.x, logo.y, logo.w, logo.h)]
  {
    var b := Panel([], White, body, BodyRadius);
    var h := Panel(b, Primary, header, HeaderRadius);
    assert b == [SetFillStyle(White)] + b[1..12] + [Fill];
    assert h == b + [SetFillStyle(Primary)] + h[14..25] + [Fill];
    h + [DrawImage(LogoAsset, logo.x, logo.y, logo.w, logo.h)]
  }

  /** createLayout: body then header on a fresh context, then the logo once it loads;
      if the logo fails to load the promise rejects and no canvas is produced. */
  function CreateLayout(loadable: set<string>): (r: Result<seq<Cmd>, string>)
    ensures r.Success? <==> LogoAsset in loadable
    ensures r.Failure? ==> r.error == LogoAsset
    ensures r.Success? ==> r.value == Layout(BodyPanel, HeaderPanel, LogoBox)
  {
    if LogoAsset !in loadable then Failure(LogoAsset)
    else Success(Layout(BodyPanel, HeaderPanel, LogoBox))
  }

  /** The two panels cover the canvas from top to bottom, inside its edges,
      overlapping by 10 pixels; the logo sits inside the header. */
  lemma LayoutGeometry()
    ensures BodyPanel.Within(Surface) && HeaderPanel.Within(Surface)
    ensures HeaderPanel.y == 0 && BodyPanel.Bottom() == Height
    ensures HeaderPanel.Bottom() - BodyPanel.y == 10
    ensures LogoBox.Within(HeaderPanel)
    ensures CalculateRadius(BodyRadius) == Radius(0, 0, 10, 10)
    ensures CalculateRadius(HeaderRadius) == Radius(10, 10, 0, 0)
  {
  }
}

=== FILE: card.dfy ===
/** index.js: the request handler — the freshness test on the cached card, the
    two API requests, and the drawing of the header and activity rows. */
module Card {
  import opened Wrappers
  import opened Text
  import opened Seqs
  import opened Helpers
  import opened Config
  import opened Canvas
  import opened Strava

  // ---------------------------------------------------------------------
  // The cached card

  /** The cached image file: absent, or present with its modification time (ms). */
  datatype CacheFile = Missing | Present(mtime: int)

  /** The cached card is served when the file exists and is younger than the cache time. */
  predicate Fresh(file: CacheFile, now: int) {
    file.Present? && now - file.mtime < CacheTimeMs
  }

  /** Once the cached card is stale it stays stale until the file is rewritten:
      freshness only runs out as the clock moves forward. */
  lemma StaleStaysStale(file: CacheFile, now: int, later: int)
    requires now <= later && !Fresh(file, now)
    ensures !Fresh(file, later)
  {
  }

  lemma FreshExamples(now: int)
    ensures Fresh(Present(now - 5 * 60 * 1000), now)
    ensures !Fresh(Present(now - 15 * 60 * 1000), now)
    ensures !Fresh(Present(now - CacheTimeMs), now)
    ensures !Fresh(Missing, now)
  {
  }

  // ---------------------------------------------------------------------
  // Row geometry

  /** Only the first four activities get a row. */
  const MaxRows: nat := 4

  function Shown(n: nat): (k: nat)
    ensures k <= n && k <= MaxRows
    ensures k == n || k == MaxRows
  {
    if n < MaxRows then n else MaxRows
  }

  function RowTop(i: nat): int {
    100 + i * 94
  }

  function RowBox(i: nat): Rect {
    Rect(20, RowTop(i), 400, 80)
  }

  const RowRadius: Radius := Radius(10, 10, 10, 10)

  /** Left edge of the row text: row left, icon width and a gap. */
  const TextLeft: int := 20 + 60 + 20

  /** Rows are stacked top to bottom in list order with a 14-pixel gap, so no two overlap. */
  lemma RowsInOrderAndDisjoint(i: nat, j: nat)
    requires i < j
    ensures RowBox(i).Bottom() + 14 <= RowBox(j).y
    ensures Disjoint(RowBox(i), RowBox(j))
  {
  }

  /** Every drawn row lies on the white body panel, inside the canvas; the last ends at 462. */
  lemma RowsFitCanvas(i: nat)
    requires i < MaxRows
    ensures RowBox(i).Within(BodyPanel) && RowBox(i).Within(Surface)
    ensures RowBox(MaxRows - 1).Bottom() == 462
  {
  }

  /** A fifth row would run off the bottom of the canvas. */
  lemma FifthRowWouldOverflow()
    ensures RowBox(MaxRows).Bottom() > Height
  {
  }

  /** The icon box and its image sit inside the row; the text starts right of the
      icon, and the three baselines fall inside the row, top to bottom. */
  lemma RowContentsInsideRow(i: nat)
    ensures IconBox(i).Within(RowBox(i)) && IconImage(i).Within(RowBox(i))
    ensures IconBox(i).x + IconBox(i).w < TextLeft < RowBox(i).x + RowBox(i).w
    ensures RowTop(i) < RowTop(i) + 25 < RowTop(i) + 45 < RowTop(i) + 65 < RowBox(i).Bottom()
  {
  }

  // ---------------------------------------------------------------------
  // Row text

  /** The two pieces of row text JavaScript computes with locale-dependent date
      formatting and floating-point arithmetic, given as functions. */
  datatype Labels = Labels(date: string -> string, miles: real -> string)

  /** `<miles> miles / <duration> / <elevation>m elevation`. */
  function StatsLine(miles: string, movingTime: nat, elevation: nat): string {
    miles + " miles / " + FormatTime(Seconds(movingTime)) + (" / " + NatToString(elevation) + "m elevation")
  }

  /** The stats line starts with the distance label, carries the formatted
      moving time right after it, and ends with the elevation gain. */
  lemma StatsLineShape(miles: string, movingTime: nat, elevation: nat)
    ensures var s, d := StatsLine(miles, movingTime, elevation), FormatTime(Seconds(movingTime));
      && |miles| + 9 + |d| <= |s|
      && s[..|miles| + 9] == miles + " miles / "
      && s[|miles| + 9..|miles| + 9 + |d|] == d
      && s[|miles| + 9 + |d|..] == " / " + NatToString(elevation) + "m elevation"
  {
    ConcatParts(miles + " miles / ", FormatTime(Seconds(movingTime)), " / " + NatToString(elevation) + "m elevation");
  }

  /** The duration inside the stats line reads back as the activity's moving time. */
  lemma StatsLineCarriesMovingTime(miles: string, movingTime: nat, elevation: nat)
    ensures var s := StatsLine(miles, movingTime, elevation);
      && |miles| + 9 + |FormatTime(Seconds(movingTime))| <= |s|
      && ParseTime(s[|miles| + 9..|miles| + 9 + |FormatTime(Seconds(movingTime))|]) == Some(movingTime)
  {
    StatsLineShape(miles, movingTime, elevation);
    FormatTimeRoundTrip(movingTime);
  }

  /** `${firstname} ${lastname} (${username})`. */
  function HeaderText(a: Athlete): (s: string)
    ensures |s| == |a.firstname| + |a.lastname| + |a.username| + 4
    ensures s[..|a.firstname| + 1] == a.firstname + " "
    ensures s[|a.firstname| + 1..|a.firstname| + 1 + |a.lastname|] == a.lastname
    ensures s[|s| - |a.username| - 3..] == " (" + a.username + ")"
  {
    var s := a.firstname + " " + a.lastname + " (" + a.username + ")";
    ConcatParts(a.firstname + " ", a.lastname, " (" + a.username + ")");
    assert s[|s| - |a.username| - 3..] == " (" + a.username + ")";
    s
  }

  // ---------------------------------------------------------------------
  // Drawing the rows

  /** The box of row i: stroke and fill colours, then a filled and stroked
      rounded rectangle. */
  function RowBoxCmds(i: nat): seq<Cmd> {
    RoundRect([SetStrokeStyle(Primary), SetFillStyle(White)], 20, RowTop(i), 400, 80, Uniform(10), true, true)
  }

  /** The commands of row i up to and including its name, and up to its date. */
  function RowNameCmds(i: nat, a: Activity): seq<Cmd> {
    AddText(RowBoxCmds(i), a.name, TextLeft, RowTop(i) + 25, "16px Montserrat", "left")
  }

  function RowDateCmds(i: nat, a: Activity, labels: Labels): seq<Cmd> {
    AddText(RowNameCmds(i, a), labels.date(a.startDate), TextLeft, RowTop(i) + 45, "16px \"Montserrat Bold\"")
  }

  /** The commands of row i: its box, then the name, the date and the stats line. */
  function RowCmds(i: nat, a: Activity, labels: Labels): (r: seq<Cmd>)
    ensures |r| == 27
  {
    AddText(RowDateCmds(i, a, labels), StatsLine(labels.miles(a.distance), a.movingTime, a.elevationGain),
            TextLeft, RowTop(i) + 65, "14px \"Montserrat\"")
  }

  /** The box of row i has radius 10 on every corner, is filled white and then
      stroked in the accent colour, whatever style the context had before. */
  lemma RowBoxDrawn(st: Style, i: nat)
    ensures var r := RowBoxCmds(i);
      && |r| == 15
      && r[2..13] == Outline(RowBox(i), RowRadius) && r[13] == Fill && r[14] == Stroke
      && Run(st, r[..13]).fillStyle == White && Run(st, r[..14]).strokeStyle == Primary
  {
    RowBoxStyles(st, i);
  }

  lemma RowBoxStyles(st: Style, i: nat)
    ensures var r := RowBoxCmds(i);
      |r| == 15 && Run(st, r[..13]).fillStyle == White && Run(st, r[..14]).strokeStyle == Primary
  {
    var styled := [SetStrokeStyle(Primary), SetFillStyle(White)];
    var r := RowBoxCmds(i);
    RunSnoc(st, [SetStrokeStyle(Primary)], SetFillStyle(White));
    assert Run(st, [SetStrokeStyle(Primary)]) == st.(strokeStyle := Primary) by {
      RunSnoc(st, [], SetStrokeStyle(Primary));
      assert [] + [SetStrokeStyle(Primary)] == [SetStrokeStyle(Primary)];
    }
    assert styled == [SetStrokeStyle(Primary)] + [SetFillStyle(White)];
    StyleUnchangedByPath(st, styled, r[..13]);
    StyleUnchangedByPath(st, styled, r[..14]);
  }

  /** Row i starts with its box; its three lines of text are left-anchored at
      TextLeft with baselines 25, 45 and 65 pixels below the row top, and the
      first is drawn left-aligned in black, whatever style the context had before. */
  lemma RowCmdsContents(st: Style, i: nat, a: Activity, labels: Labels)
    ensures var r := RowCmds(i, a, labels);
      && r[..15] == RowBoxCmds(i)
      && r[18] == FillText(a.name, TextLeft, RowTop(i) + 25)
      && r[22] == FillText(labels.date(a.startDate), TextLeft, RowTop(i) + 45)
      && r[26] == FillText(StatsLine(labels.miles(a.distance), a.movingTime, a.elevationGain), TextLeft, RowTop(i) + 65)
      && Run(st, r[..18]).align == "left" && Run(st, r[..18]).fillStyle == Black
  {
    RowCmdsPositions(i, a, labels);
    RowTextStyles(st, i, a, labels);
  }

  /** Where the box and the three texts sit among a row's commands. */
  lemma RowCmdsPositions(i: nat, a: Activity, labels: Labels)
    ensures var r := RowCmds(i, a, labels);
      && r[..15] == RowBoxCmds(i)
      && r[18] == FillText(a.name, TextLeft, RowTop(i) + 25)
      && r[22] == FillText(labels.date(a.startDate), TextLeft, RowTop(i) + 45)
      && r[26] == FillText(StatsLine(labels.miles(a.distance), a.movingTime, a.elevationGain), TextLeft, RowTop(i) + 65)
  {
    RowPrefixes(i, a, labels);
    RowBoxFirst(i, a, labels);
    RowNameAt(i, a, labels);
    RowDateAt(i, a, labels);
  }

  lemma RowBoxFirst(i: nat, a: Activity, labels: Labels)
    requires RowNameCmds(i, a) <= RowCmds(i, a, labels)
    ensures RowCmds(i, a, labels)[..15] == RowBoxCmds(i)
  {
    var t1, r := RowNameCmds(i, a), RowCmds(i, a, labels);
    assert t1[..15] == RowBoxCmds(i);
    assert r[..15] == t1[..15];
  }

  lemma RowNameAt(i: nat, a: Activity, labels: Labels)
    requires RowNameCmds(i, a) <= RowCmds(i, a, labels)
    ensures RowCmds(i, a, labels)[18] == FillText(a.name, TextLeft, RowTop(i) + 25)
  {
    var t1, r := RowNameCmds(i, a), RowCmds(i, a, labels);
    assert t1[18] == FillText(a.name, TextLeft, RowTop(i) + 25);
  }

  lemma RowDateAt(i: nat, a: Activity, labels: Labels)
    requires RowDateCmds(i, a, labels) <= RowCmds(i, a, labels)
    ensures RowCmds(i, a, labels)[22] == FillText(labels.date(a.startDate), TextLeft, RowTop(i) + 45)
  {
    var t2, r := RowDateCmds(i, a, labels), RowCmds(i, a, labels);
    assert t2[22] == FillText(labels.date(a.startDate), TextLeft, RowTop(i) + 45);
  }

  /** All three lines of a row are left-aligned and filled black: the name in
      16px Montserrat, the date in bold, the stats line in 14px, whatever style
      the context had before the row. */
  lemma RowTextStyles(st: Style, i: nat, a: Activity, labels: Labels)
    ensures var r, base := RowCmds(i, a, labels), Run(st, RowBoxCmds(i));
      && Run(st, r[..18]) == base.(fillStyle := Black, font := "16px Montserrat", align := "left")
      && Run(st, r[..22]) == base.(fillStyle := Black, font := "16px \"Montserrat Bold\"", align := "left")
      && Run(st, r[..26]) == base.(fillStyle := Black, font := "14px \"Montserrat\"", align := "left")
  {
    var t1, t2, r := RowNameCmds(i, a), RowDateCmds(i, a, labels), RowCmds(i, a, labels);
    RowTextPrefixes(i, a, labels);
    AddTextStyle(st, RowBoxCmds(i), a.name, TextLeft, RowTop(i) + 25, "16px Montserrat", "left", Black);
    AddTextStyle(st, t1, labels.date(a.startDate), TextLeft, RowTop(i) + 45, "16px \"Montserrat Bold\"", "left", Black);
  }

  /** Drawn after anything at all, the header included, a row's box is still filled
      white and stroked in the accent colour, and its name is left-aligned in black. */
  lemma RowStylesAfter(st: Style, ctx: seq<Cmd>, i: nat, a: Activity, labels: Labels)
    ensures var r := ctx + RowCmds(i, a, labels);
      && Run(st, r[..|ctx| + 13]).fillStyle == White && Run(st, r[..|ctx| + 14]).strokeStyle == Primary
      && Run(st, r[..|ctx| + 18]).align == "left" && Run(st, r[..|ctx| + 18]).fillStyle == Black
  {
    RowBoxStylesAfter(st, ctx, i, a, labels);
    var row := RowCmds(i, a, labels);
    RowCmdsContents(Run(st, ctx), i, a, labels);
    RunAfter(st, ctx, row, 18);
  }

  lemma RowBoxStylesAfter(st: Style, ctx: seq<Cmd>, i: nat, a: Activity, labels: Labels)
    ensures var r := ctx + RowCmds(i, a, labels);
      Run(st, r[..|ctx| + 13]).fillStyle == White && Run(st, r[..|ctx| + 14]).strokeStyle == Primary
  {
    RowPrefixes(i, a, labels);
    RowBoxFirst(i, a, labels);
    BoxStylesAfter(st, ctx, RowCmds(i, a, labels), i);
  }

  /** Any trace that starts with row i's box, drawn after ctx, fills it white and
      strokes it in the accent colour. */
  lemma BoxStylesAfter(st: Style, ctx: seq<Cmd>, row: seq<Cmd>, i: nat)
    requires 15 <= |row| && row[..15] == RowBoxCmds(i)
    ensures Run(st, (ctx + row)[..|ctx| + 13]).fillStyle == White
    ensures Run(st, (ctx + row)[..|ctx| + 14]).strokeStyle == Primary
  {
    assert row[..13] == RowBoxCmds(i)[..13] && row[..14] == RowBoxCmds(i)[..14];
    RowBoxStyles(Run(st, ctx), i);
    RunAfter(st, ctx, row, 13);
    RunAfter(st, ctx, row, 14);
  }

  /** The traces up to each line's text, read off the row's commands. */
  lemma RowTextPrefixes(i: nat, a: Activity, labels: Labels)
    ensures var t1, t2, r := RowNameCmds(i, a), RowDateCmds(i, a, labels), RowCmds(i, a, labels);
      && |t1| == 19 && |t2| == 23 && |r| == 27
      && r[..18] == t1[..|t1| - 1] && r[..22] == t2[..|t2| - 1] && r[..26] == r[..|r| - 1]
  {
    var t1, t2, r := RowNameCmds(i, a), RowDateCmds(i, a, labels), RowCmds(i, a, labels);
    RowPrefixes(i, a, labels);
    assert r[..18] == t1[..18] && r[..22] == t2[..22];
  }

  /** Row i's commands extend the name and date steps. */
  lemma RowPrefixes(i: nat, a: Activity, labels: Labels)
    ensures var t1, t2, r := RowNameCmds(i, a), RowDateCmds(i, a, labels), RowCmds(i, a, labels);
      && |t1| == 19 && |t2| == 23 && |r| == 27 && t1 <= t2 <= r
  {
  }

  // index.js walks the activity list twice with `arrActivities.map((objActivity,
  // intI) => { if (intI < 4) … })`: once drawing the rows, once starting the icon
  // loads. MapRows and MapIcons are those walks for any callback; their lemmas
  // hold whatever the callback draws.

  /** The drawing walk: every activity is visited, the callback draws only for the
      first four; the result is what those calls add to the canvas, in list order. */
  function MapRows(acts: seq<Activity>, draw: (nat, Activity) -> seq<Cmd>, i: nat): seq<Cmd>
    requires i <= |acts|
    decreases |acts| - i
  {
    if i == |acts| then []
    else if i < MaxRows then draw(i, acts[i]) + MapRows(acts, draw, i + 1)
    else MapRows(acts, draw, i + 1)
  }

  /** Every call of the callback adds exactly n commands. */
  ghost predicate Blocks(draw: (nat, Activity) -> seq<Cmd>, n: nat) {
    forall k: nat, a: Activity :: |draw(k, a)| == n
  }

  lemma {:induction false} MapRowsLength(acts: seq<Activity>, draw: (nat, Activity) -> seq<Cmd>, n: nat, i: nat)
    requires i <= |acts| && Blocks(draw, n)
    ensures |MapRows(acts, draw, i)| == n * (Shown(|acts|) - Shown(i))
    decreases |acts| - i
  {
    if i < |acts| {
      MapRowsLength(acts, draw, n, i + 1);
      if i < MaxRows {
        assert Shown(|acts|) - Shown(i) == Shown(|acts|) - Shown(i + 1) + 1;
        assert n * (Shown(|acts|) - Shown(i + 1) + 1) == n * (Shown(|acts|) - Shown(i + 1)) + n;
      }
    }
  }

  /** Block j - i of the walk from i is what the callback drew for activity j. */
  lemma {:induction false} MapRowsInOrder(acts: seq<Activity>, draw: (nat, Activity) -> seq<Cmd>, n: nat, i: nat, j: nat)
    requires Blocks(draw, n) && i <= j < Shown(|acts|)
    ensures var r := MapRows(acts, draw, i);
      n * (j - i) + n <= |r| && r[n * (j - i)..n * (j - i) + n] == draw(j, acts[j])
    decreases |acts| - i
  {
    if j > i {
      MapRowsInOrder(acts, draw, n, i + 1, j);
      MapRowsNextBlock(acts, draw, n, i, j);
    } else {
      MapRowsFirstBlock(acts, draw, n, i, j);
    }
  }

  /** The walk from i starts with the callback's drawing for activity i. */
  lemma MapRowsFirstBlock(acts: seq<Activity>, draw: (nat, Activity) -> seq<Cmd>, n: nat, i: nat, j: nat)
    requires Blocks(draw, n) && i == j < Shown(|acts|)
    ensures var r := MapRows(acts, draw, i);
      n * (j - i) + n <= |r| && r[n * (j - i)..n * (j - i) + n] == draw(j, acts[j])
  {
    var here := draw(i, acts[i]);
    var rest := MapRows(acts, draw, i + 1);
    assert MapRows(acts, draw, i) == here + rest;
    assert |here| == n && n * (j - i) == 0;
    LeftOfConcat(here, rest);
  }

  /** A block found in the walk from i + 1 sits one block further on in the walk from i. */
  lemma MapRowsNextBlock(acts: seq<Activity>, draw: (nat, Activity) -> seq<Cmd>, n: nat, i: nat, j: nat)
    requires Blocks(draw, n) && i < j < Shown(|acts|)
    requires var rest := MapRows(acts, draw, i + 1);
      n * (j - (i + 1)) + n <= |rest| && rest[n * (j - (i + 1))..n * (j - (i + 1)) + n] == draw(j, acts[j])
    ensures var r := MapRows(acts, draw, i);
      n * (j - i) + n <= |r| && r[n * (j - i)..n * (j - i) + n] == draw(j, acts[j])
  {
    var here := draw(i, acts[i]);
    var rest := MapRows(acts, draw, i + 1);
    assert MapRows(acts, draw, i) == here + rest;
    assert |here| == n && j - i == (j - (i + 1)) + 1;
    BlockAfterBlock(here, rest, n, j - (i + 1), draw(j, acts[j]));
  }

  /** Past the fourth index the walk draws nothing. */
  lemma {:induction false} MapRowsPastCap(acts: seq<Activity>, draw: (nat, Activity) -> seq<Cmd>, i: nat)
    requires MaxRows <= i <= |acts|
    ensures MapRows(acts, draw, i) == []
    decreases |acts| - i
  {
    if i < |acts| {
      MapRowsPastCap(acts, draw, i + 1);
    }
  }

  /** Activities past the fourth change nothing the walk draws. */
  lemma {:induction false} MapRowsIgnoresTail(acts: seq<Activity>, draw: (nat, Activity) -> seq<Cmd>, i: nat)
    requires MaxRows <= |acts| && i <= MaxRows
    ensures MapRows(acts, draw, i) == MapRows(acts[..MaxRows], draw, i)
    decreases MaxRows - i
  {
    if i < MaxRows {
      assert acts[..MaxRows][i] == acts[i];
      MapRowsIgnoresTail(acts, draw, i + 1);
    } else {
      MapRowsPastCap(acts, draw, i);
      MapRowsPastCap(acts[..MaxRows], draw, i);
    }
  }

  /** The loading walk, as `Promise.all` over the loads it starts: it settles
      with everything the loads drew when every one of them resolves, and
      rejects when any of them rejects. */
  function MapIcons(acts: seq<Activity>, load: (nat, string) -> Result<seq<Cmd>, string>, i: nat): Result<seq<Cmd>, string>
    requires i <= |acts|
    decreases |acts| - i
  {
    if i == |acts| then Success([])
    else if i < MaxRows then
      match load(i, acts[i].kind)
      case Failure(e) => Failure(e)
      case Success(icon) =>
        match MapIcons(acts, load, i + 1)
        case Failure(e) => Failure(e)
        case Success(rest) => Success(icon + rest)
    else MapIcons(acts, load, i + 1)
  }

  /** Every load that resolves adds exactly n commands. */
  ghost predicate LoadBlocks(load: (nat, string) -> Result<seq<Cmd>, string>, n: nat) {
    forall k: nat, kind: string :: load(k, kind).Success? ==> |load(k, kind).value| == n
  }

  lemma {:induction false} MapIconsSettles(acts: seq<Activity>, load: (nat, string) -> Result<seq<Cmd>, string>, i: nat)
    requires i <= |acts|
    ensures MapIcons(acts, load, i).Success? <==> forall j :: i <= j < Shown(|acts|) ==> load(j, acts[j].kind).Success?
    decreases |acts| - i
  {
    if i < |acts| {
      MapIconsSettles(acts, load, i + 1);
    }
  }

  /** When all loads resolve, block j - i is what the load of activity j drew. */
  lemma {:induction false} MapIconsInOrder(acts: seq<Activity>, load: (nat, string) -> Result<seq<Cmd>, string>,
                                           n: nat, i: nat, j: nat)
    requires LoadBlocks(load, n) && i <= j < Shown(|acts|)
    requires MapIcons(acts, load, i).Success?
    ensures var r := MapIcons(acts, load, i).value;
      && load(j, acts[j].kind).Success?
      && n * (j - i) + n <= |r| && r[n * (j - i)..n * (j - i) + n] == load(j, acts[j].kind).value
    decreases |acts| - i
  {
    assert load(i, acts[i].kind).Success? && MapIcons(acts, load, i + 1).Success?;
    var here := load(i, acts[i].kind).value;
    var rest := MapIcons(acts, load, i + 1).value;
    assert MapIcons(acts, load, i).value == here + rest;
    assert |here| == n;
    if j > i {
      MapIconsInOrder(acts, load, n, i + 1, j);
      var k := n * (j - (i + 1));
      MulSucc(n, j - (i + 1));
      assert n * (j - i) == |here| + k;
      WindowOfRight(here, rest, k, n);
    } else {
      assert n * (j - i) == 0;
      LeftOfConcat(here, rest);
    }
  }

  /** When all loads resolve, the walk adds n commands per drawn row. */
  lemma {:induction false} MapIconsLength(acts: seq<Activity>, load: (nat, string) -> Result<seq<Cmd>, string>, n: nat, i: nat)
    requires i <= |acts| && LoadBlocks(load, n)
    requires MapIcons(acts, load, i).Success?
    ensures |MapIcons(acts, load, i).value| == n * (Shown(|acts|) - Shown(i))
    decreases |acts| - i
  {
    if i < |acts| {
      MapIconsLength(acts, load, n, i + 1);
      if i < MaxRows {
        assert Shown(|acts|) - Shown(i) == Shown(|acts|) - Shown(i + 1) + 1;
        assert n * (Shown(|acts|) - Shown(i + 1) + 1) == n * (Shown(|acts|) - Shown(i + 1)) + n;
      }
    }
  }

  lemma {:induction false} MapIconsPastCap(acts: seq<Activity>, load: (nat, string) -> Result<seq<Cmd>, string>, i: nat)
    requires MaxRows <= i <= |acts|
    ensures MapIcons(acts, load, i) == Success([])
    decreases |acts| - i
  {
    if i < |acts| {
      MapIconsPastCap(acts, load, i + 1);
    }
  }

  lemma {:induction false} MapIconsIgnoresTail(acts: seq<Activity>, load: (nat, string) -> Result<seq<Cmd>, string>, i: nat)
    requires MaxRows <= |acts| && i <= MaxRows
    ensures MapIcons(acts, load, i) == MapIcons(acts[..MaxRows], load, i)
    decreases MaxRows - i
  {
    if i < MaxRows {
      assert acts[..MaxRows][i] == acts[i];
      MapIconsIgnoresTail(acts, load, i + 1);
    } else {
      MapIconsPastCap(acts, load, i);
      MapIconsPastCap(acts[..MaxRows], load, i);
    }
  }

  // The two walks of the card.

  function RowDrawer(labels: Labels): (nat, Activity) -> seq<Cmd> {
    (k: nat, a: Activity) => RowCmds(k, a, labels)
  }

  /** The rows of the card: 27 commands for each of the first four activities. */
  function DrawRows(acts: seq<Activity>, labels: Labels): (r: seq<Cmd>)
    ensures |r| == 27 * Shown(|acts|)
  {
    MapRowsLength(acts, RowDrawer(labels), 27, 0);
    MapRows(acts, RowDrawer(labels), 0)
  }

  /** The rows appear in list order: the j-th block of 27 commands is row j. */
  lemma DrawRowsInOrder(acts: seq<Activity>, labels: Labels, j: nat)
    requires j < Shown(|acts|)
    ensures DrawRows(acts, labels)[27 * j..27 * j + 27] == RowCmds(j, acts[j], labels)
  {
    var draw := RowDrawer(labels);
    assert Blocks(draw, 27) by {
      forall k: nat, a: Activity
        ensures |draw(k, a)| == 27
      {
        assert draw(k, a) == RowCmds(k, a, labels);
      }
    }
    MapRowsInOrder(acts, draw, 27, 0, j);
    assert DrawRows(acts, labels) == MapRows(acts, draw, 0);
    assert draw(j, acts[j]) == RowCmds(j, acts[j], labels);
  }

  /** Only the first four activities reach the rows. */
  lemma DrawRowsIgnoresTail(acts: seq<Activity>, labels: Labels)
    requires MaxRows <= |acts|
    ensures DrawRows(acts, labels) == DrawRows(acts[..MaxRows], labels)
  {
    MapRowsIgnoresTail(acts, RowDrawer(labels), 0);
  }

  function IconLoader(loadable: set<string>): (nat, string) -> Result<seq<Cmd>, string> {
    (k: nat, kind: string) => LoadIcon([], k, kind, loadable)
  }

  /** Every icon from row i on to the last drawn row loads. */
  predicate IconsLoad(acts: seq<Activity>, loadable: set<string>, i: nat) {
    forall j :: i <= j < Shown(|acts|) ==> IconAsset(acts[j].kind) in loadable
  }

  /** The icons of the card: they all settle exactly when every icon file loads,
      and then add 16 commands per drawn row. */
  function DrawIcons(acts: seq<Activity>, loadable: set<string>): (r: Result<seq<Cmd>, string>)
    ensures r.Success? <==> IconsLoad(acts, loadable, 0)
    ensures r.Success? ==> |r.value| == 16 * Shown(|acts|)
  {
    MapIconsSettles(acts, IconLoader(loadable), 0);
    var r := MapIcons(acts, IconLoader(loadable), 0);
    if r.Success? then
      MapIconsLength(acts, IconLoader(loadable), 16, 0);
      r
    else r
  }

  /** The icon of row j is the j-th block of 16 commands, its image drawn from
      the activity type's file inside row j's icon box. */
  lemma DrawIconsInOrder(acts: seq<Activity>, loadable: set<string>, j: nat)
    requires j < Shown(|acts|) && DrawIcons(acts, loadable).Success?
    ensures var r := DrawIcons(acts, loadable).value;
      var img := IconImage(j);
      && r[16 * j..16 * j + 16] == LoadIcon([], j, acts[j].kind, loadable).value
      && r[16 * j + 15] == DrawImage(IconAsset(acts[j].kind), img.x, img.y, img.w, img.h)
  {
    var r := DrawIcons(acts, loadable).value;
    var icon := LoadIcon([], j, acts[j].kind, loadable).value;
    assert r[16 * j..16 * j + 16] == icon by {
      MapIconsInOrder(acts, IconLoader(loadable), 16, 0, j);
    }
    assert r[16 * j + 15] == icon[15];
  }

  /** Only the first four activities' icons are loaded. */
  lemma DrawIconsIgnoresTail(acts: seq<Activity>, loadable: set<string>)
    requires MaxRows <= |acts|
    ensures DrawIcons(acts, loadable) == DrawIcons(acts[..MaxRows], loadable)
  {
    MapIconsIgnoresTail(acts, IconLoader(loadable), 0);
  }

  // ---------------------------------------------------------------------
  // The card

  /** The avatar image source, present only when the athlete request returned an athlete. */
  function ProfileSource(athlete: Fetched): (r: Option<string>)
    ensures r.Some? <==> athlete.Data? && athlete.payload.JAthlete?
    ensures r.Some? ==> r.value == athlete.payload.athlete.profile
  {
    if athlete.Data? && athlete.payload.JAthlete? then Some(athlete.payload.athlete.profile) else None
  }

  /** `if (arrActivities.length) arrActivities.map(…)`: an activity list is walked;
      `false` (a failed request), the other falsy values and values whose length is
      absent or 0 draw nothing; reading `.length` of `null` throws, and so does
      calling the missing `map` of a value with a non-zero length. */
  function ActivityList(activities: Fetched): (r: Result<seq<Activity>, string>)
    ensures r.Failure? <==> activities == Data(JNull) || activities == Data(JListLike)
    ensures activities.Data? && activities.payload.JActivities? ==> r == Success(activities.payload.activities)
    ensures r.Success? && |r.value| > 0 ==> activities.Data? && activities.payload.JActivities?
  {
    match activities
    case Data(JActivities(s)) => Success(s)
    case Data(JNull) => Failure("TypeError: cannot read length of null")
    case Data(JListLike) => Failure("TypeError: map is not a function")
    case _ => Success([])
  }

  const AvatarBox: Rect := Rect(580, 20, 40, 40)

  /** The avatar: a black square outline, then the profile picture inside it. */
  function AvatarCmds(ctx: seq<Cmd>, a: Athlete): seq<Cmd> {
    RoundRect(ctx + [SetStrokeStyle(Black)], AvatarBox.x, AvatarBox.y, AvatarBox.w, AvatarBox.h, Uniform(0), false, true)
      + [DrawImage(a.profile, AvatarBox.x, AvatarBox.y, AvatarBox.w, AvatarBox.h)]
  }

  /** The header contents: the avatar, then the name, right-aligned in white. */
  function AthleteHeader(ctx: seq<Cmd>, a: Athlete): (r: seq<Cmd>)
    ensures |r| == |ctx| + 18 && ctx <= r
  {
    var pic := AvatarCmds(ctx, a);
    assert pic[..|ctx|] == ctx;
    AddText(pic, HeaderText(a), 565, 45, "16px Montserrat Bold", "right", White)
  }

  /** The avatar's square corners are outlined and stroked, never filled, and the
      picture is drawn into the same box. */
  lemma AvatarDrawn(ctx: seq<Cmd>, a: Athlete)
    ensures var r := AvatarCmds(ctx, a);
      && |r| == |ctx| + 14 && r[..|ctx|] == ctx && r[|ctx|] == SetStrokeStyle(Black)
      && r[|ctx| + 1..|ctx| + 12] == Outline(AvatarBox, NoRadius) && r[|ctx| + 12] == Stroke
      && r[|ctx| + 13] == DrawImage(a.profile, AvatarBox.x, AvatarBox.y, AvatarBox.w, AvatarBox.h)
  {
    var boxed := RoundRect(ctx + [SetStrokeStyle(Black)], AvatarBox.x, AvatarBox.y, AvatarBox.w, AvatarBox.h, Uniform(0), false, true);
    LeftOfConcat(boxed, [DrawImage(a.profile, AvatarBox.x, AvatarBox.y, AvatarBox.w, AvatarBox.h)]);
    assert boxed[..|ctx| + 1] == ctx + [SetStrokeStyle(Black)];
  }

  /** After the avatar the name is drawn at (565, 45), right-aligned and filled white. */
  lemma AthleteHeaderContents(ctx: seq<Cmd>, a: Athlete)
    ensures var r := AthleteHeader(ctx, a);
      && r[..|ctx| + 14] == AvatarCmds(ctx, a)
      && r[|ctx| + 17] == FillText(HeaderText(a), 565, 45)
      && Run(InitialStyle, r[..|ctx| + 17]).align == "right" && Run(InitialStyle, r[..|ctx| + 17]).fillStyle == White
  {
    AvatarDrawn(ctx, a);
  }

  /** `if (arrActivities.length)`: the rows, then the icons, after the header;
      an empty list leaves the header as the whole card. */
  function DrawActivities(head: seq<Cmd>, acts: seq<Activity>, loadable: set<string>, labels: Labels): (r: Result<seq<Cmd>, string>)
    ensures r.Success? <==> IconsLoad(acts, loadable, 0)
    ensures r.Success? ==> r.value == head + DrawRows(acts, labels) + DrawIcons(acts, loadable).value
    ensures r.Success? ==> head <= r.value
  {
    if |acts| == 0 then
      assert DrawRows(acts, labels) == [] && DrawIcons(acts, loadable).value == [];
      Success(head)
    else
      match DrawIcons(acts, loadable)
      case Failure(e) => Failure(e)
      case Success(icons) => Success(head + DrawRows(acts, labels) + icons)
  }

  /** Only the first four activities reach the canvas. */
  lemma DrawActivitiesIgnoresTail(head: seq<Cmd>, acts: seq<Activity>, loadable: set<string>, labels: Labels)
    requires |acts| > MaxRows
    ensures DrawActivities(head, acts, loadable, labels) == DrawActivities(head, acts[..MaxRows], loadable, labels)
  {
    DrawRowsIgnoresTail(acts, labels);
    DrawIconsIgnoresTail(acts, loadable);
  }

  /** The drawing of index.js once both requests have settled. A Failure is a
      rejected promise: the request then gets no response at all. */
  function Render(athlete: Fetched, activities: Fetched, loadable: set<string>, labels: Labels): (r: Result<seq<Cmd>, string>)
    ensures r.Success? <==>
      && LogoAsset in loadable
      && ProfileSource(athlete).Some? && ProfileSource(athlete).value in loadable
      && ActivityList(activities).Success?
      && IconsLoad(ActivityList(activities).value, loadable, 0)
    ensures activities == Data(JNull) || activities == Data(JListLike) ==> r.Failure?
    ensures r.Success? ==>
      && CreateLayout(loadable).value <= AthleteHeader(CreateLayout(loadable).value, athlete.payload.athlete) <= r.value
  {
    match CreateLayout(loadable)
    case Failure(e) => Failure(e)
    case Success(layout) =>
      var profile := ProfileSource(athlete);
      if profile.None? then Failure("cannot load an undefined image")
      else if profile.value !in loadable then Failure(profile.value)
      else
        var head := AthleteHeader(layout, athlete.payload.athlete);
        match ActivityList(activities)
        case Failure(e) => Failure(e)
        case Success(acts) =>
          DrawActivities(head, acts, loadable, labels)
  }

  /** Every finished card starts with the layout. */
  lemma RenderStartsWithLayout(athlete: Fetched, activities: Fetched, loadable: set<string>, labels: Labels)
    requires Render(athlete, activities, loadable, labels).Success?
    ensures Layout(BodyPanel, HeaderPanel, LogoBox) <= Render(athlete, activities, loadable, labels).value
  {
  }

  /** With no activities, a failed activities request or a body with no list,
      the card is the layout and the athlete header only. */
  lemma EmptyListHeaderOnly(athlete: Fetched, activities: Fetched, loadable: set<string>, labels: Labels)
    requires activities == NoData || activities == Data(JActivities([]))
          || activities == Data(JOther) || activities == Data(JFalsy)
    requires LogoAsset in loadable && ProfileSource(athlete).Some? && ProfileSource(athlete).value in loadable
    ensures Render(athlete, activities, loadable, labels)
      == Success(AthleteHeader(Layout(BodyPanel, HeaderPanel, LogoBox), athlete.payload.athlete))
  {
    assert ActivityList(activities) == Success([]);
    HeaderOnlyWithoutRows(athlete, activities, loadable, labels);
  }

  /** A list step that yields no activities leaves the header-only card. */
  lemma HeaderOnlyWithoutRows(athlete: Fetched, activities: Fetched, loadable: set<string>, labels: Labels)
    requires ActivityList(activities) == Success([])
    requires LogoAsset in loadable && ProfileSource(athlete).Some? && ProfileSource(athlete).value in loadable
    ensures Render(athlete, activities, loadable, labels)
      == Success(AthleteHeader(Layout(BodyPanel, HeaderPanel, LogoBox), athlete.payload.athlete))
  {
    var head := AthleteHeader(Layout(BodyPanel, HeaderPanel, LogoBox), athlete.payload.athlete);
    RenderDraws(athlete, activities, loadable, labels);
    assert DrawActivities(head, [], loadable, labels) == Success(head);
  }

  /** Only the first four activities matter to the card. */
  lemma RenderIgnoresExtraActivities(athlete: Fetched, acts: seq<Activity>, loadable: set<string>, labels: Labels)
    requires |acts| > MaxRows
    ensures Render(athlete, Data(JActivities(acts)), loadable, labels)
      == Render(athlete, Data(JActivities(acts[..MaxRows])), loadable, labels)
  {
    var all, four := Data(JActivities(acts)), Data(JActivities(acts[..MaxRows]));
    assert ActivityList(all) == Success(acts);
    assert ActivityList(four) == Success(acts[..MaxRows]);
    if CreateLayout(loadable).Failure? {
      assert Render(athlete, all, loadable, labels) == Failure(CreateLayout(loadable).error);
    } else if ProfileSource(athlete).None? {
      assert Render(athlete, all, loadable, labels) == Failure("cannot load an undefined image");
    } else if ProfileSource(athlete).value !in loadable {
      assert Render(athlete, all, loadable, labels) == Failure(ProfileSource(athlete).value);
    } else {
      DrawActivitiesIgnoresTail(AthleteHeader(CreateLayout(loadable).value, athlete.payload.athlete), acts, loadable, labels);
      RenderDraws(athlete, all, loadable, labels);
      RenderDraws(athlete, four, loadable, labels);
    }
  }

  /** Once the logo, the avatar and the list are in, the card is the header
      followed by what the list draws. */
  lemma RenderDraws(athlete: Fetched, activities: Fetched, loadable: set<string>, labels: Labels)
    requires CreateLayout(loadable).Success?
    requires ProfileSource(athlete).Some? && ProfileSource(athlete).value in loadable
    requires ActivityList(activities).Success?
    ensures Render(athlete, activities, loadable, labels)
      == DrawActivities(AthleteHeader(CreateLayout(loadable).value, athlete.payload.athlete),
                        ActivityList(activities).value, loadable, labels)
  {
  }

  // ---------------------------------------------------------------------
  // The request

  /** How a request ends: the cached file, a freshly drawn (and saved) card, or never. */
  datatype Outcome = ServedFromCache | FreshCard(canvas: seq<Cmd>) | NoResponse

  /** What the two API requests of one cache miss would be answered with. */
  datatype Upstream = Upstream(athleteToken: TokenReply, athleteGet: GetReply,
                               activitiesToken: TokenReply, activitiesGet: GetReply)

  datatype Exchange = Exchange(client: Client, calls: seq<Call>, outcome: Outcome)

  /** The activities are never requested before the athlete. */
  predicate AthleteFirst(calls: seq<Call>) {
    forall i, j :: 0 <= i < j < |calls| && calls[i].Get? && calls[j].Get? ==>
      !(calls[i].url == ActivitiesUrl && calls[j].url == AthleteUrl)
  }

  /** Every GET directly follows a token refresh. */
  predicate RefreshBeforeGet(calls: seq<Call>) {
    forall j :: 0 <= j < |calls| && calls[j].Get? ==> 0 < j && calls[j - 1].TokenPost?
  }

  lemma FetchShape(c: Client, url: string, now: int, token: TokenReply, get: GetReply)
    ensures var calls := DoFetch(c, url, now, token, get).calls;
      RefreshBeforeGet(calls) && (forall k :: 0 <= k < |calls| && calls[k].Get? ==> k == 1 && calls[k].url == url)
  {
  }

  lemma {:induction false} ConcatKeepsOrder(a: seq<Call>, b: seq<Call>)
    requires RefreshBeforeGet(a) && RefreshBeforeGet(b)
    requires GetsOnly(a, AthleteUrl) && GetsOnly(b, ActivitiesUrl)
    ensures RefreshBeforeGet(a + b) && AthleteFirst(a + b)
  {
    var s := a + b;
    assert AthleteUrl != ActivitiesUrl by {
      assert |AthleteUrl| != |ActivitiesUrl|;
    }
    forall j | 0 <= j < |s| && s[j].Get?
      ensures 0 < j && s[j - 1].TokenPost?
    {
      if j >= |a| {
        assert s[j] == b[j - |a|];
        assert 0 < j - |a|;
        assert s[j - 1] == b[j - |a| - 1];
      }
    }
    forall i, j | 0 <= i < j < |s| && s[i].Get? && s[j].Get?
      ensures !(s[i].url == ActivitiesUrl && s[j].url == AthleteUrl)
    {
      if i < |a| {
        assert s[i] == a[i];
      } else {
        assert s[i] == b[i - |a|] && s[j] == b[j - |a|];
      }
    }
  }

  /** The handler for `GET /`. */
  function HandleRequest(c: Client, file: CacheFile, now: int, up: Upstream,
                         loadable: set<string>, labels: Labels): (r: Exchange)
    ensures r.outcome == ServedFromCache <==> Fresh(file, now)
    ensures Fresh(file, now) ==> r.client == c && r.calls == []
    ensures RefreshBeforeGet(r.calls) && AthleteFirst(r.calls)
    ensures r.outcome.FreshCard? ==> Layout(BodyPanel, HeaderPanel, LogoBox) <= r.outcome.canvas
    ensures !Fresh(file, now) ==>
      var a := GetAthlete(c, now, up.athleteToken, up.athleteGet);
      var b := GetActivities(a.client, now, up.activitiesToken, up.activitiesGet);
      var card := Render(a.result.value, b.result.value, loadable, labels);
      && r.calls == a.calls + b.calls && r.client == b.client
      && r.outcome == (if card.Success? then FreshCard(card.value) else NoResponse)
  {
    if Fresh(file, now) then Exchange(c, [], ServedFromCache)
    else
      var a := GetAthlete(c, now, up.athleteToken, up.athleteGet);
      var b := GetActivities(a.client, now, up.activitiesToken, up.activitiesGet);
      FetchShape(c, AthleteUrl, now, up.athleteToken, up.athleteGet);
      FetchShape(a.client, ActivitiesUrl, now, up.activitiesToken, up.activitiesGet);
      ConcatKeepsOrder(a.calls, b.calls);
      var card := Render(a.result.value, b.result.value, loadable, labels);
      if card.Success? then
        RenderStartsWithLayout(a.result.value, b.result.value, loadable, labels);
        Exchange(b.client, a.calls + b.calls, FreshCard(card.value))
      else
        Exchange(b.client, a.calls + b.calls, NoResponse)
  }

  /** A cache miss whose activities request finds an empty list, fails, or finds no
      list is answered with the header-only card, once the logo and avatar load. */
  lemma MissWithEmptyListAnswersHeader(c: Client, file: CacheFile, now: int, up: Upstream,
                                       loadable: set<string>, labels: Labels)
    requires !Fresh(file, now)
    requires var a := GetAthlete(c, now, up.athleteToken, up.athleteGet);
      var b := GetActivities(a.client, now, up.activitiesToken, up.activitiesGet);
      && (b.result.value == NoData || b.result.value == Data(JActivities([]))
          || b.result.value == Data(JOther) || b.result.value == Data(JFalsy))
      && LogoAsset in loadable
      && ProfileSource(a.result.value).Some? && ProfileSource(a.result.value).value in loadable
    ensures var athlete := GetAthlete(c, now, up.athleteToken, up.athleteGet).result.value;
      HandleRequest(c, file, now, up, loadable, labels).outcome
        == FreshCard(AthleteHeader(Layout(BodyPanel, HeaderPanel, LogoBox), athlete.payload.athlete))
  {
    var a := GetAthlete(c, now, up.athleteToken, up.athleteGet);
    var b := GetActivities(a.client, now, up.activitiesToken, up.activitiesGet);
    EmptyListHeaderOnly(a.result.value, b.result.value, loadable, labels);
  }

  /** The activities request presents the refresh token the athlete request's
      refresh just received, with the unchanged client id and secret. */
  lemma ActivitiesRefreshUsesNewToken(c: Client, file: CacheFile, now: int, up: Upstream,
                                      loadable: set<string>, labels: Labels)
    requires !Fresh(file, now) && !Hit(c.cache, AthleteUrl, now) && up.athleteToken.TokenJson?
    requires !Hit(GetAthlete(c, now, up.athleteToken, up.athleteGet).client.cache, ActivitiesUrl, now)
    ensures var a := GetAthlete(c, now, up.athleteToken, up.athleteGet);
      var r := HandleRequest(c, file, now, up, loadable, labels);
      && |a.calls| < |r.calls|
      && r.calls[|a.calls|] == TokenPost(TokenUrl, c.tokens.clientId, c.tokens.clientSecret,
                                         EnvString(up.athleteToken.refreshToken), "refresh_token")
  {
  }

  /** When the athlete request fails the handler never answers: `loadImage` of an
      undefined profile rejects or never settles, and nothing connects it to the response. */
  lemma AthleteFailureLeavesRequestOpen(c: Client, file: CacheFile, now: int, up: Upstream,
                                        loadable: set<string>, labels: Labels)
    requires !Fresh(file, now)
    requires GetAthlete(c, now, up.athleteToken, up.athleteGet).result.value == NoData
    ensures HandleRequest(c, file, now, up, loadable, labels).outcome == NoResponse
  {
  }

  /** A cache miss always asks the API again, refreshing the token first. */
  lemma MissRefreshesFirst(c: Client, file: CacheFile, now: int, up: Upstream,
                           loadable: set<string>, labels: Labels)
    requires !Fresh(file, now) && !Hit(c.cache, AthleteUrl, now)
    ensures var r := HandleRequest(c, file, now, up, loadable, labels);
      1 <= |r.calls| && r.calls[0] == RefreshCall(c.tokens)
  {
  }
}

=== FILE: config.dfy ===
/** lib/config.js: the constants the card uses. */
module Config {
  /** Canvas size in pixels. */
  const Width: int := 640
  const Height: int := 480

  /** Palette. */
  const Primary: string := "#fc4c02"
  const Black: string := "#000"
  const White: string := "#fff"

  /** How long the rendered card stays fresh, in milliseconds. */
  const CacheTimeMs: int := 1000 * 60 * 10
}

=== FILE: helpers.dfy ===
/** lib/helpers.js: corner-radius normalisation and the duration formatter. */
module Helpers {
  import opened Wrappers
  import opened Text

  /** The four-corner record `{tl, tr, br, bl}`. */
  datatype Radius = Radius(tl: int, tr: int, br: int, bl: int)

  /** What a caller may pass as `radius`: a number, an object whose corner
      properties may be absent (None) or present, or anything else
      (undefined, null, a string, ...). */
  datatype RadiusArg =
    | Uniform(r: int)
    | PerCorner(tl: Option<int>, tr: Option<int>, br: Option<int>, bl: Option<int>)
    | NotARadius

  const NoRadius: Radius := Radius(0, 0, 0, 0)

  /** A corner property is truthy when it is present and not 0. */
  predicate Truthy(v: Option<int>) {
    v.Some? && v.value != 0
  }

  /** `radius[side] || 0`. */
  function CornerOr0(v: Option<int>): (r: int)
    ensures Truthy(v) ==> r == v.value
    ensures !Truthy(v) ==> r == 0
  {
    if Truthy(v) then v.value else 0
  }

  /** calculateRadius. */
  function CalculateRadius(radius: RadiusArg): (r: Radius)
    ensures radius.Uniform? ==> r.tl == r.tr == r.br == r.bl == radius.r
    ensures radius.NotARadius? ==> r == NoRadius
    ensures radius.PerCorner? ==>
      && (Truthy(radius.tl) ==> r.tl == radius.tl.value) && (!Truthy(radius.tl) ==> r.tl == 0)
      && (Truthy(radius.tr) ==> r.tr == radius.tr.value) && (!Truthy(radius.tr) ==> r.tr == 0)
      && (Truthy(radius.br) ==> r.br == radius.br.value) && (!Truthy(radius.br) ==> r.br == 0)
      && (Truthy(radius.bl) ==> r.bl == radius.bl.value) && (!Truthy(radius.bl) ==> r.bl == 0)
  {
    match radius
    case Uniform(n) => Radius(n, n, n, n)
    case PerCorner(tl, tr, br, bl) => Radius(CornerOr0(tl), CornerOr0(tr), CornerOr0(br), CornerOr0(bl))
    case NotARadius => NoRadius
  }

  /** The record calculateRadius returns, handed back to it as an object with every corner set. */
  function AsArg(r: Radius): RadiusArg {
    PerCorner(Some(r.tl), Some(r.tr), Some(r.br), Some(r.bl))
  }

  /** Normalising an already normalised radius returns the same four corners. */
  lemma CalculateRadiusIdempotent(radius: RadiusArg)
    ensures CalculateRadius(AsArg(CalculateRadius(radius))) == CalculateRadius(radius)
  {
  }

  /** Every complete record is a fixed point: any Radius survives a round trip as an argument. */
  lemma CalculateRadiusKeepsRecords(r: Radius)
    ensures CalculateRadius(AsArg(r)) == r
  {
  }

  /** The number 0, an empty object and a non-radius all mean square corners. */
  lemma SquareCornerArguments()
    ensures CalculateRadius(Uniform(0)) == NoRadius
    ensures CalculateRadius(PerCorner(None, None, None, None)) == NoRadius
    ensures CalculateRadius(NotARadius) == NoRadius
    ensures CalculateRadius(Uniform(10)) == Radius(10, 10, 10, 10)
    ensures CalculateRadius(PerCorner(Some(5), None, None, None)) == Radius(5, 0, 0, 0)
  {
  }

  // ---------------------------------------------------------------------
  // formatTime

  /** What a caller may pass as `time`: a whole number of seconds, or a non-number. */
  datatype TimeArg = Seconds(n: nat) | NonNumber

  /** The literal returned for 0 and for non-numbers. */
  const ZeroTime: string := "00:00:00"

  /** Hours, minutes and seconds of a duration. */
  datatype Hms = Hms(hrs: nat, mins: nat, secs: nat)

  function Split(n: nat): (t: Hms)
    ensures t.mins < 60 && t.secs < 60
    ensures t.hrs * 3600 + t.mins * 60 + t.secs == n
  {
    Hms(n / 3600, (n % 3600) / 60, n % 60)
  }

  /** `${v < 10 ? '0' : ''}${v}`: at least two digits, more only when needed. */
  function Pad2(v: nat): (s: string)
    ensures AllDigits(s) && 2 <= |s|
    ensures v < 100 <==> |s| == 2
    ensures 2 < |s| ==> s == NatToString(v)
    ensures DigitsValue(s) == v
  {
    NatToStringRoundTrip(v);
    if v < 10 then
      LeadingZero(NatToString(v));
      "0" + NatToString(v)
    else NatToString(v)
  }

  /** The characters a formatted duration may contain. */
  predicate TimeChar(c: char) {
    IsDigit(c) || c in "hms :"
  }

  /** The `<H>h <M>m <S>s` text, from three printed components. */
  function Glue(h: string, m: string, sc: string): string {
    h + "h " + m + "m " + sc + "s"
  }

  /** Where each component and unit sits in the glued text. */
  lemma GlueParts(h: string, m: string, sc: string)
    requires |m| == 2 && |sc| == 2
    ensures |Glue(h, m, sc)| == |h| + 9
    ensures Glue(h, m, sc)[..|h|] == h
    ensures Glue(h, m, sc)[|h| + 2..|h| + 4] == m
    ensures Glue(h, m, sc)[|h| + 6..|h| + 8] == sc
    ensures Glue(h, m, sc)[|h|] == 'h' && Glue(h, m, sc)[|h| + 1] == ' '
    ensures Glue(h, m, sc)[|h| + 4] == 'm' && Glue(h, m, sc)[|h| + 5] == ' '
    ensures Glue(h, m, sc)[|h| + 8] == 's'
  {
    var s := Glue(h, m, sc);
    assert s[..|h|] == h;
    assert s[|h| + 2..|h| + 4] == m;
    assert s[|h| + 6..|h| + 8] == sc;
  }

  /** The third character from the end of the glued text is the seconds' first. */
  lemma GlueThirdLast(h: string, m: string, sc: string)
    requires |sc| >= 2
    ensures Glue(h, m, sc)[|Glue(h, m, sc)| - 3] == sc[|sc| - 2]
  {
  }

  /** formatTime. */
  function FormatTime(time: TimeArg): (s: string)
    ensures (time.NonNumber? || time.n == 0) <==> s == ZeroTime
    ensures time.Seconds? && time.n > 0 ==>
      && 11 <= |s| && s[|s| - 9] == 'h' && s[|s| - 5] == 'm' && s[|s| - 1] == 's'
      && s[|s| - 8] == ' ' && s[|s| - 4] == ' '
      && s[..|s| - 9] == Pad2(time.n / 3600)
      && s[|s| - 7..|s| - 5] == Pad2((time.n % 3600) / 60)
      && s[|s| - 3..|s| - 1] == Pad2(time.n % 60)
  {
    if time.NonNumber? || time.n == 0 then ZeroTime
    else
      var t := Split(time.n);
      GlueParts(Pad2(t.hrs), Pad2(t.mins), Pad2(t.secs));
      Glue(Pad2(t.hrs), Pad2(t.mins), Pad2(t.secs))
  }

  /** Reads a duration back from the text FormatTime prints: the partner that
      shows no two durations print alike. */
  function ParseTime(s: string): Option<nat> {
    if s == ZeroTime then Some(0)
    else if
      && 11 <= |s| && AllDigits(s[..|s| - 9])
      && s[|s| - 9] == 'h' && s[|s| - 8] == ' '
      && AllDigits(s[|s| - 7..|s| - 5])
      && s[|s| - 5] == 'm' && s[|s| - 4] == ' '
      && AllDigits(s[|s| - 3..|s| - 1])
      && s[|s| - 1] == 's'
    then
      Some(DigitsValue(s[..|s| - 9]) * 3600 + DigitsValue(s[|s| - 7..|s| - 5]) * 60 + DigitsValue(s[|s| - 3..|s| - 1]))
    else None
  }

  /** Three digit components glued together read back as the duration they spell. */
  lemma ParseGlue(h: string, m: string, sc: string)
    requires AllDigits(h) && AllDigits(m) && AllDigits(sc)
    requires 2 <= |h| && |m| == 2 && |sc| == 2
    ensures ParseTime(Glue(h, m, sc)) == Some(DigitsValue(h) * 3600 + DigitsValue(m) * 60 + DigitsValue(sc))
  {
    var s := Glue(h, m, sc);
    GlueParts(h, m, sc);
    assert |s| != |ZeroTime|;
    assert |s| - 9 == |h|;
  }

  /** Every number of seconds reads back from its formatted text. */
  lemma FormatTimeRoundTrip(n: nat)
    ensures ParseTime(FormatTime(Seconds(n))) == Some(n)
  {
    if n > 0 {
      var t := Split(n);
      ParseGlue(Pad2(t.hrs), Pad2(t.mins), Pad2(t.secs));
    }
  }

  /** Different durations never print the same text. */
  lemma FormatTimeInjective(a: nat, b: nat)
    requires FormatTime(Seconds(a)) == FormatTime(Seconds(b))
    ensures a == b
  {
    FormatTimeRoundTrip(a);
    FormatTimeRoundTrip(b);
  }

  /** A formatted duration uses only digits, the unit letters, spaces and colons. */
  lemma FormatTimeAlphabet(time: TimeArg)
    ensures forall i :: 0 <= i < |FormatTime(time)| ==> TimeChar(FormatTime(time)[i])
  {
    if time.Seconds? && time.n > 0 {
      var t := Split(time.n);
      var h, m, sc := Pad2(t.hrs), Pad2(t.mins), Pad2(t.secs);
      assert FormatTime(time) == h + "h " + m + "m " + sc + "s";
      assert AllDigits(h) && AllDigits(m) && AllDigits(sc);
    }
  }

  /** A non-number and 0 print alike; every positive duration prints differently from both. */
  lemma FormatTimeZeroCases(n: nat)
    ensures FormatTime(NonNumber) == FormatTime(Seconds(0)) == "00:00:00"
    ensures n > 0 ==> FormatTime(Seconds(n)) != FormatTime(NonNumber)
  {
  }

  /** The worked example: one hour, one minute and one second. */
  lemma FormatTimeExample3661()
    ensures FormatTime(Seconds(3661)) == "01h 01m 01s"
  {
    assert Split(3661) == Hms(1, 1, 1);
    assert Pad2(1) == "01";
  }

  /** Exactly one hour. */
  lemma FormatTimeExample3600()
    ensures FormatTime(Seconds(3600)) == "01h 00m 00s"
  {
    assert Split(3600) == Hms(1, 0, 0);
    assert Pad2(0) == "00" && Pad2(1) == "01";

  }

  /** A duration of more than 99 hours keeps all its hour digits. */
  lemma FormatTimeExample360000()
    ensures FormatTime(Seconds(360000)) == "100h 00m 00s"
  {
    assert Split(360000) == Hms(100, 0, 0);
    assert Pad2(0) == "00";
    assert NatToString(10) == "10";
    assert Pad2(100) == "100";

  }

  // ---------------------------------------------------------------------
  // formatTime as written: `~~` converts to a signed 32-bit integer.

  const TwoTo31: int := 0x8000_0000
  const TwoTo32: int := 0x1_0000_0000

  /** JavaScript's ToInt32, applied by `~~` to a whole number. */
  function ToInt32(x: int): (r: int)
    ensures -TwoTo31 <= r < TwoTo31
    ensures (x - r) % TwoTo32 == 0
    ensures -TwoTo31 <= x < TwoTo31 ==> r == x
  {
    var m := x % TwoTo32;
    if m >= TwoTo31 then m - TwoTo32 else m
  }

  /** JavaScript's `%`: the remainder takes the sign of the dividend. */
  function JsRem(a: int, b: int): (r: int)
    requires b > 0
    ensures -b < r < b
    ensures a >= 0 ==> r == a % b
    ensures a < 0 ==> r == -((-a) % b)
  {
    if a >= 0 then a % b else -((-a) % b)
  }

  function JsPad2(v: int): string {
    (if v < 10 then "0" else "") + IntToString(v)
  }

  /** formatTime exactly as lib/helpers.js computes it (the quotient of the
      whole-number division stands for `~~` of the floating-point one). */
  function JsFormatTime(time: TimeArg): (s: string)
    ensures (time.NonNumber? || time.n == 0) ==> s == ZeroTime
    ensures time.Seconds? && time.n > 0 ==> 7 <= |s| && s[|s| - 1] == 's' && s != ZeroTime
  {
    if time.NonNumber? || time.n == 0 then ZeroTime
    else
      var hrs := ToInt32(time.n / 3600);
      var mins := (time.n % 3600) / 60;
      var secs := JsRem(ToInt32(time.n), 60);
      Glue(JsPad2(hrs), JsPad2(mins), JsPad2(secs))
  }

  /** Padding agrees with the JavaScript padding on non-negative numbers. */
  lemma JsPad2OfNat(v: nat)
    ensures JsPad2(v) == Pad2(v)
  {
  }

  /** Below 2^31 seconds the code as written and the corrected FormatTime agree. */
  lemma JsFormatTimeAgreesBelow2To31(n: nat)
    requires n < TwoTo31
    ensures JsFormatTime(Seconds(n)) == FormatTime(Seconds(n))
  {
    if n > 0 {
      assert n / 3600 <= n;
      assert ToInt32(n / 3600) == n / 3600;
      assert JsRem(ToInt32(n), 60) == n % 60;
      JsPad2OfNat(n / 3600);
      JsPad2OfNat((n % 3600) / 60);
      JsPad2OfNat(n % 60);
    }
  }

  /** At 2^31 seconds `~~time` wraps to -2^31, so the seconds field prints as
      "0-8": the text no longer reads back as a duration. */
  lemma JsFormatTimeWrapsAt2To31()
    ensures JsFormatTime(Seconds(TwoTo31)) != FormatTime(Seconds(TwoTo31))
    ensures ParseTime(JsFormatTime(Seconds(TwoTo31))) == None
  {
    JsWrappedSeconds();
    FormatTimeAlphabet(Seconds(TwoTo31));
  }

  /** At 2^31 seconds the seconds field as written is `0-8`, so a minus sign
      stands third from the end. */
  lemma JsWrappedSeconds()
    ensures var s := JsFormatTime(Seconds(TwoTo31)); 3 <= |s| && s[|s| - 3] == '-'
  {
    var n := TwoTo31;
    assert ToInt32(n) == -TwoTo31;
    assert JsRem(-TwoTo31, 60) == -8;
    JsPadMinusEight();
    var h, m := JsPad2(ToInt32(n / 3600)), JsPad2((n % 3600) / 60);
    assert JsFormatTime(Seconds(n)) == Glue(h, m, "0-8");
    GlueThirdLast(h, m, "0-8");
  }

  lemma JsPadMinusEight()
    ensures JsPad2(-8) == "0-8"
  {
    assert NatToString(8) == "8";
    assert IntToString(-8) == "-" + NatToString(8) == "-8";
  }

}

=== FILE: seqs.dfy ===
/** Slicing facts about concatenations, used where the card reads back the
    commands a drawing step appended. */
module Seqs {

  /** The three operands of a concatenation, read back by slicing. */
  lemma ConcatParts<T>(a: seq<T>, b: seq<T>, c: seq<T>)
    ensures (a + b + c)[..|a|] == a
    ensures (a + b + c)[|a|..|a| + |b|] == b
    ensures (a + b + c)[|a| + |b|..] == c
  {
    assert (a + b + c)[..|a|] == a;
    assert (a + b + c)[|a|..|a| + |b|] == b;
  }

  /** A window of the right operand, read through the concatenation. */
  lemma WindowOfRight<T>(a: seq<T>, b: seq<T>, k: nat, n: nat)
    requires k + n <= |b|
    ensures (a + b)[|a| + k..|a| + k + n] == b[k..k + n]
  {
  }

  /** The left operand, read back by slicing. */
  lemma LeftOfConcat<T>(a: seq<T>, b: seq<T>)
    ensures (a + b)[..|a|] == a
  {
  }

  /** Putting an n-element block in front moves block m of a run of n-element
      blocks to position m + 1. */
  lemma BlockAfterBlock<T>(here: seq<T>, rest: seq<T>, n: nat, m: nat, w: seq<T>)
    requires |here| == n && n * m + n <= |rest| && rest[n * m..n * m + n] == w
    ensures n * (m + 1) + n <= |here + rest| && (here + rest)[n * (m + 1)..n * (m + 1) + n] == w
  {
    MulSucc(n, m);
    WindowOfRight(here, rest, n * m, n);
  }

  /** Block m + 1 of a run of n-element blocks starts n elements after block m. */
  lemma MulSucc(n: nat, m: nat)
    ensures n * (m + 1) == n * m + n
  {
  }
}

=== FILE: strava.dfy ===
/** lib/strava.js: the API client, its response cache and the token refresh,
    as a state record threaded through pure functions. The network is an oracle:
    each operation receives the replies the token endpoint and the API would give
    and returns the calls it made. */
module Strava {
  import opened Wrappers

  datatype Athlete = Athlete(firstname: string, lastname: string, username: string, profile: string)

  datatype Activity = Activity(
    name: string,
    kind: string,           // the `type` field
    startDate: string,
    distance: real,         // metres, as the JSON number sent
    movingTime: nat,        // seconds
    elevationGain: nat)     // metres

  /** A parsed response body. JNull is `null`; JFalsy is any other falsy value
      (`false`, `0`, `""`). The truthy values other than an athlete or a list of
      activities split by their `.length`: JListLike has a non-zero length but no
      `map` (a non-empty string, an object with a `length` field); JOther has none
      or 0 (`true`, a non-zero number, an object with no list). */
  datatype Json =
    | JAthlete(athlete: Athlete)
    | JActivities(activities: seq<Activity>)
    | JListLike
    | JOther
    | JFalsy
    | JNull

  /** JavaScript truthiness: `null` and the other falsy values are false, every object is true. */
  predicate Truthy(j: Json) {
    !j.JNull? && !j.JFalsy?
  }

  const ApiBase: string := "https://www.strava.com/api/v3/"
  const TokenUrl: string := ApiBase + "oauth/token"
  const AthleteUrl: string := ApiBase + "athlete"
  const ActivitiesUrl: string := ApiBase + "athlete/activities?per_page=4"

  /** Lifetime of a cached response: the cache's standard TTL of 60 * 60 seconds, in milliseconds. */
  const CacheTtlMs: int := 60 * 60 * 1000

  datatype Entry = Entry(payload: Json, expiresAt: int)

  /** The credentials the process keeps in its environment. */
  datatype Tokens = Tokens(clientId: string, clientSecret: string, access: string, refresh: string)

  datatype Client = Client(cache: map<string, Entry>, tokens: Tokens)

  /** A request the client sends. */
  datatype Call =
    | TokenPost(url: string, clientId: string, clientSecret: string, refreshToken: string, grantType: string)
    | Get(url: string, authorization: string)

  /** What the token endpoint answers: a JSON body, whose token fields may be
      missing (an error body still parses), or a failure to reach it or parse it. */
  datatype TokenReply = TokenJson(accessToken: Option<string>, refreshToken: Option<string>) | TokenError

  /** Assigning to process.env stores a string: a missing field becomes "undefined". */
  function EnvString(v: Option<string>): (s: string)
    ensures v.Some? ==> s == v.value
    ensures v.None? ==> s == "undefined"
  {
    v.GetOr("undefined")
  }

  /** What the API answers a GET with: a response whose body may fail to parse, or a network failure. */
  datatype GetReply = Response(ok: bool, status: int, body: Option<Json>) | NetworkError

  /** The state after an operation, the calls it made in order, and its settled value. */
  datatype Step<T> = Step(client: Client, calls: seq<Call>, result: Result<T, string>)

  /** The stored value for a URL, unless absent or expired (an entry lives up to and including its expiry time). */
  function Lookup(cache: map<string, Entry>, url: string, now: int): (r: Option<Json>)
    ensures r.Some? <==> url in cache && now <= cache[url].expiresAt
    ensures r.Some? ==> r.value == cache[url].payload
  {
    if url in cache && now <= cache[url].expiresAt then Some(cache[url].payload) else None
  }

  /** A cache hit: a stored, unexpired, truthy value. */
  predicate Hit(cache: map<string, Entry>, url: string, now: int) {
    var v := Lookup(cache, url, now);
    v.Some? && Truthy(v.value)
  }

  /** The refresh_token grant of section 6 of RFC 6749, built from the stored credentials. */
  function RefreshCall(t: Tokens): Call {
    TokenPost(TokenUrl, t.clientId, t.clientSecret, t.refresh, "refresh_token")
  }

  /** reAuthorize: one POST to the token endpoint; whenever its body parses, both
      stored tokens are overwritten with the body's fields, present or not. */
  function ReAuthorize(c: Client, reply: TokenReply): (r: Step<()>)
    ensures r.calls == [RefreshCall(c.tokens)]
    ensures r.client.cache == c.cache
    ensures r.result.Success? <==> reply.TokenJson?
    ensures reply.TokenJson? ==>
      && r.client.tokens.access == EnvString(reply.accessToken)
      && r.client.tokens.refresh == EnvString(reply.refreshToken)
      && r.client.tokens.clientId == c.tokens.clientId && r.client.tokens.clientSecret == c.tokens.clientSecret
    ensures reply.TokenError? ==> r.client == c
  {
    var call := RefreshCall(c.tokens);
    match reply
    case TokenJson(access, refresh) =>
      Step(c.(tokens := c.tokens.(access := EnvString(access), refresh := EnvString(refresh))), [call], Success(()))
    case TokenError =>
      Step(c, [call], Failure("token refresh failed"))
  }

  /** The refresh token rotates: the next refresh presents the token the last reply carried,
      and a reply without one leaves "undefined" to be presented. */
  lemma RefreshTokenRotates(c: Client, first: TokenReply, second: TokenReply)
    requires first.TokenJson?
    ensures ReAuthorize(ReAuthorize(c, first).client, second).calls[0].refreshToken == EnvString(first.refreshToken)
  {
  }

  /** The bearer header sent with a GET. */
  function Bearer(t: Tokens): string {
    "Bearer " + t.access
  }

  /** doFetch. */
  function DoFetch(c: Client, url: string, now: int, token: TokenReply, get: GetReply): (r: Step<Json>)
    // a hit answers from the cache with no network traffic and no change
    ensures Hit(c.cache, url, now) ==> r == Step(c, [], Success(c.cache[url].payload))
    // a miss refreshes first, and only a granted refresh is followed by the GET
    ensures !Hit(c.cache, url, now) ==>
      && 1 <= |r.calls| && r.calls[0] == RefreshCall(c.tokens)
      && (|r.calls| == 2 <==> token.TokenJson?) && |r.calls| <= 2
    // the GET carries the access token the refresh just stored
    ensures |r.calls| == 2 ==>
      r.client.tokens.access == EnvString(token.accessToken) && r.calls[1] == Get(url, Bearer(r.client.tokens))
    // a miss succeeds exactly when the refresh is granted and the response is ok with a body
    ensures !Hit(c.cache, url, now) ==>
      (r.result.Success? <==> token.TokenJson? && get.Response? && get.ok && get.body.Some?)
    // only a successful miss writes the cache, under exactly the requested URL
    ensures r.result.Failure? ==> r.client.cache == c.cache
    ensures !Hit(c.cache, url, now) && r.result.Success? ==>
      && get.Response? && get.body == Some(r.result.value)
      && r.client.cache == c.cache[url := Entry(r.result.value, now + CacheTtlMs)]
    // the tokens change only through a granted refresh
    ensures r.client.tokens == c.tokens || (!Hit(c.cache, url, now) && token.TokenJson?)
    // a miss leaves the tokens the refresh stored, whatever the GET then does
    ensures !Hit(c.cache, url, now) ==> r.client.tokens == ReAuthorize(c, token).client.tokens
  {
    if Hit(c.cache, url, now) then Step(c, [], Success(c.cache[url].payload))
    else
      var auth := ReAuthorize(c, token);
      if auth.result.Failure? then Step(auth.client, auth.calls, Failure(auth.result.error))
      else
        var c1 := auth.client;
        var calls := auth.calls + [Get(url, Bearer(c1.tokens))];
        match get
        case NetworkError => Step(c1, calls, Failure("network error"))
        case Response(ok, status, body) =>
          if !ok then Step(c1, calls, Failure("HTTP error"))
          else if body.None? then Step(c1, calls, Failure("invalid JSON"))
          else Step(c1.(cache := c1.cache[url := Entry(body.value, now + CacheTtlMs)]), calls, Success(body.value))
  }

  /** After a successful fetch of a truthy body, fetching the same URL again within
      the hour is a hit: no refresh, no GET, the same payload, whatever the network would say. */
  lemma FetchThenHit(c: Client, url: string, now: int, token: TokenReply, get: GetReply,
                     later: int, token2: TokenReply, get2: GetReply)
    requires !Hit(c.cache, url, now)
    requires DoFetch(c, url, now, token, get).result.Success?
    requires Truthy(DoFetch(c, url, now, token, get).result.value)
    requires now <= later <= now + CacheTtlMs
    ensures var s := DoFetch(c, url, now, token, get);
      DoFetch(s.client, url, later, token2, get2) == Step(s.client, [], Success(s.result.value))
  {
  }

  /** Once the hour has passed the entry is gone: the next fetch starts with a refresh. */
  lemma EntryExpires(c: Client, url: string, now: int, token: TokenReply, get: GetReply,
                     later: int, token2: TokenReply, get2: GetReply)
    requires !Hit(c.cache, url, now)
    requires DoFetch(c, url, now, token, get).result.Success?
    requires later > now + CacheTtlMs
    ensures var s := DoFetch(c, url, now, token, get);
      DoFetch(s.client, url, later, token2, get2).calls[0] == RefreshCall(s.client.tokens)
  {
  }

  /** A fetch never disturbs what the cache says about any other URL. */
  lemma FetchKeepsOtherEntries(c: Client, url: string, now: int, token: TokenReply, get: GetReply, other: string, t: int)
    requires other != url
    ensures Lookup(DoFetch(c, url, now, token, get).client.cache, other, t) == Lookup(c.cache, other, t)
  {
  }

  /** The public result: the payload, or `false` for any error. */
  datatype Fetched = Data(payload: Json) | NoData

  /** getAthlete / getActivities: doFetch with every error turned into `false`. */
  function Downgrade(s: Step<Json>): (r: Step<Fetched>)
    ensures r.client == s.client && r.calls == s.calls && r.result.Success?
    ensures r.result.value == NoData <==> s.result.Failure?
    ensures s.result.Success? ==> r.result.value == Data(s.result.value)
  {
    Step(s.client, s.calls, Success(if s.result.Success? then Data(s.result.value) else NoData))
  }

  /** Every GET a trace holds goes to the given URL. */
  predicate GetsOnly(calls: seq<Call>, url: string) {
    forall k :: 0 <= k < |calls| && calls[k].Get? ==> calls[k].url == url
  }

  function GetAthlete(c: Client, now: int, token: TokenReply, get: GetReply): (r: Step<Fetched>)
    ensures r.result.Success? && GetsOnly(r.calls, AthleteUrl)
    ensures r.result.value == NoData <==> DoFetch(c, AthleteUrl, now, token, get).result.Failure?
    ensures var d := DoFetch(c, AthleteUrl, now, token, get);
      && r.client == d.client && r.calls == d.calls
      && (d.result.Success? ==> r.result.value == Data(d.result.value))
  {
    Downgrade(DoFetch(c, AthleteUrl, now, token, get))
  }

  function GetActivities(c: Client, now: int, token: TokenReply, get: GetReply): (r: Step<Fetched>)
    ensures r.result.Success? && GetsOnly(r.calls, ActivitiesUrl)
    ensures r.result.value == NoData <==> DoFetch(c, ActivitiesUrl, now, token, get).result.Failure?
    ensures var d := DoFetch(c, ActivitiesUrl, now, token, get);
      && r.client == d.client && r.calls == d.calls
      && (d.result.Success? ==> r.result.value == Data(d.result.value))
  {
    Downgrade(DoFetch(c, ActivitiesUrl, now, token, get))
  }
}

=== FILE: text.dfy ===
/** Decimal digits and ASCII case, the string primitives JavaScript's template
    literals and String.prototype.toLowerCase provide to the card code. */
module Text {

  predicate IsDigit(c: char) {
    '0' <= c <= '9'
  }

  predicate AllDigits(s: string) {
    forall i :: 0 <= i < |s| ==> IsDigit(s[i])
  }

  function DigitValue(c: char): (d: nat)
    requires IsDigit(c)
    ensures d < 10
  {
    (c as int) - ('0' as int)
  }

  function DigitChar(d: nat): (c: char)
    requires d < 10
    ensures IsDigit(c) && DigitValue(c) == d
  {
    (('0' as int) + d) as char
  }

  /** The value of a string of decimal digits, most significant first. */
  function DigitsValue(s: string): nat
    requires AllDigits(s)
  {
    if |s| == 0 then 0 else DigitsValue(s[..|s| - 1]) * 10 + DigitValue(s[|s| - 1])
  }

  /** How JavaScript prints a non-negative integer: shortest decimal, no leading zero. */
  function NatToString(n: nat): (s: string)
    ensures 1 <= |s| && AllDigits(s)
    ensures |s| == 1 <==> n < 10
    ensures 1 < |s| ==> s[0] != '0'
  {
    if n < 10 then [DigitChar(n)] else NatToString(n / 10) + [DigitChar(n % 10)]
  }

  /** How JavaScript prints any integer: a minus sign before the magnitude of a negative one. */
  function IntToString(i: int): (s: string)
    ensures 0 <= i ==> 1 <= |s| && AllDigits(s) && DigitsValue(s) == i
    ensures i < 0 ==> 2 <= |s| && s[0] == '-' && AllDigits(s[1..]) && DigitsValue(s[1..]) == -i
  {
    if i < 0 then
      NatToStringRoundTrip(-i);
      var s := "-" + NatToString(-i);
      assert s[1..] == NatToString(-i);
      s
    else
      NatToStringRoundTrip(i);
      NatToString(i)
  }

  /** Printing then reading back a number gives the number. */
  lemma {:induction false} NatToStringRoundTrip(n: nat)
    ensures DigitsValue(NatToString(n)) == n
  {
    var s := NatToString(n);
    if n >= 10 {
      NatToStringRoundTrip(n / 10);
      assert s[..|s| - 1] == NatToString(n / 10);
    }
  }

  /** A leading zero does not change the value of a digit string. */
  lemma {:induction false} LeadingZero(t: string)
    requires AllDigits(t)
    ensures AllDigits("0" + t) && DigitsValue("0" + t) == DigitsValue(t)
  {
    var s := "0" + t;
    if |t| > 0 {
      assert s[..|s| - 1] == "0" + t[..|t| - 1];
      LeadingZero(t[..|t| - 1]);
    }
  }

  function LowerChar(c: char): char {
    if 'A' <= c <= 'Z' then (c as int + 32) as char else c
  }

  /** String.prototype.toLowerCase restricted to the ASCII letters. */
  function ToLower(s: string): (r: string)
    ensures |r| == |s|
    ensures forall i :: 0 <= i < |s| ==> r[i] == LowerChar(s[i])
    ensures forall i :: 0 <= i < |r| ==> !('A' <= r[i] <= 'Z')
    ensures forall i :: 0 <= i < |s| && !('A' <= s[i] <= 'Z') ==> r[i] == s[i]
  {
    if |s| == 0 then [] else ToLower(s[..|s| - 1]) + [LowerChar(s[|s| - 1])]
  }

  /** Lower-casing a lower-cased name changes nothing. */
  lemma ToLowerIdempotent(s: string)
    ensures ToLower(ToLower(s)) == ToLower(s)
  {
  }
}

=== FILE: wrappers.dfy ===
/** Option and Result, the failure-carrying values used throughout the model. */
module Wrappers {

  datatype Option<+T> = None | Some(value: T) {
    function GetOr(default: T): T {
      match this
      case Some(v) => v
      case None => default
    }
  }

  /** A settled promise: either the value it resolved with or the error it rejected with. */
  datatype Result<+R, +E> = Success(value: R) | Failure(error: E)
}
